=== FILE: README.md ===
# Movie Vibe Game — a Dafny model of the game logic

The movie-vibe-game is a browser guessing game. A random movie's poster is
hidden behind a 15 by 15 grid of coloured cells, and the player has three
guesses to name the film. This project models the sequential logic under
the React components as immutable datatypes and pure functions, and proves
properties of that model:

- **Game** (`src/components/MovieGuesser.tsx`) covers `handleGuess` and
  `handleNewGame`. This is the state machine over attempts, status
  (`playing`/`won`/`lost`), the reveal schedule `[30, 60, 100]`, the list of
  discovered letters, and the in-progress guard. The game is lost on the
  third wrong guess.
- **Scoring** (the same file) covers the two-pass letter scorer. Exact
  positions are marked first; displaced letters are then drawn from a pool
  in which used title letters are overwritten by the `'*'` sentinel. The
  module also covers the append-only accumulation of discovered letters.
- **Slots** (`src/components/LetterInput.tsx`) covers the letter-slot input:
  - three parallel arrays (letters, per-slot states, locks);
  - `handleChange` and `handlePaste`;
  - `findNextEmptyIndex` and `findPrevEmptyIndex`;
  - `prefillCorrectLetters`;
  - `clear` and the reset on becoming disabled.
- **GuessInput** (`src/components/MovieGuessInput.tsx`) covers the slot count
  derived from the title and the filter on completed guesses.
- **RevealMask** (`src/utils/canvasUtils.ts`) covers the choice of revealed
  cells in `applyRevealMask` and the 32-bit `simpleHash`, with int32
  wrap-around written out. The cell order is a stable sort of the cells by
  the hash of `index-seed`. Below 100% the revealed cells are a prefix of a
  permutation of the 225 cells.
- **Obfuscation** (`src/utils/encryption.ts`) covers `encryptText` and
  `decryptText`. These apply a cyclic XOR with the key `CINEMYSTERY_KEY`,
  then `btoa`/`atob`. `btoa` is modelled as the base64 encoding of section 4
  of RFC 4648; `atob` is modelled as the WHATWG forgiving-base64 decode.
  Strings are sequences of UTF-16 code units.
- **Proxy** (`src/api/proxy.ts`) covers the memoising lookups by title, id
  and search, plus the uncached random lookup. The fetch function is an
  oracle parameter.
- **DevProxy** (`vite.config.ts`, `vitest.config.ts`) covers the dev-server
  path rewrite, with the environment's API key as a parameter.
- **Strings** holds the character and string helpers both components share:
  ASCII case mapping, ECMAScript `trim`, letter filtering and decimal
  rendering.

## Model

| member | source | states |
|---|---|---|
| Strings.LowerStr | src/components/MovieGuesser.tsx:57-58 | `toLowerCase` keeps the length and maps each character on its own: A–Z go to a–z, everything else is kept |
| Strings.UpperStr | src/components/LetterInput.tsx:59 | `toUpperCase` keeps the length and maps each character on its own: a–z go to A–Z, everything else is kept |
| Strings.Trim | src/components/MovieGuesser.tsx:57-58 | the input is leading white space, then the result, then trailing white space, and the result neither starts nor ends with white space |
| Strings.TrimBlank | src/components/MovieGuessInput.tsx:21 | trimming leaves the empty string exactly when every character is white space |
| Strings.TrimFrame | src/components/MovieGuesser.tsx:57-58 | trimming spaces + core + spaces, where the core has non-space ends, gives back exactly the core, inner spaces included |
| Strings.TrimLower | src/components/MovieGuesser.tsx:57-58 | lower-casing and trimming commute, so `toLowerCase().trim()` equals trimming first and lower-casing after |
| Strings.Letters | src/components/MovieGuessInput.tsx:27 | `replace(/[^a-zA-Z]/g, '')` gives a string of ASCII letters, no longer than its input, holding exactly the letters that occur in it |
| Strings.LettersCounts | src/components/MovieGuessInput.tsx:27 | every ASCII letter is kept as many times as it occurs, and every other character is dropped |
| Strings.LettersAppend | src/components/MovieGuessInput.tsx:27 | filtering a concatenation filters each part and keeps the parts in order, so the letters keep their order |
| Strings.NatToString | src/utils/canvasUtils.ts:67 | the decimal rendering of a cell index is a non-empty run of digits with no leading zero, one digit long exactly below 10, whose decimal value is the index |
| Strings.IntToString | src/api/proxy.ts:45 | the rendering of the page number is its decimal digits, read back as the number, with no leading zero, preceded by a single `-` exactly when it is negative |
| Strings.IntToStringInjective | src/api/proxy.ts:45 | different page numbers render differently |
| Strings.Concat | src/components/LetterInput.tsx:74 | `join('')` of no strings is the empty string, and of one string is that string |
| Strings.ConcatAppend | src/components/LetterInput.tsx:74 | joining two lists one after the other is joining each and concatenating, so the join keeps the list order |
| Slots.Clear | src/components/LetterInput.tsx:218-221 | `clear` leaves `n` well-formed slots, each empty, `idle` and unlocked |
| Slots.OnDisabledChange | src/components/LetterInput.tsx:43-49 | becoming disabled resets every slot like `clear`; becoming enabled changes nothing |
| Slots.Submit | src/components/LetterInput.tsx:72-75 | `onComplete` fires exactly when every slot is non-empty, and then with the concatenation of the slots |
| Slots.Change | src/components/LetterInput.tsx:51-76 | a change to a disabled input, to a locked slot, or with a non-letter value does nothing. Otherwise only the indexed slot changes, to the upper-cased value, and completion fires exactly when all slots are filled, with the slots joined in order |
| Slots.FindNext | src/components/LetterInput.tsx:78-85 | returns the least unlocked index at or after the start, or -1 exactly when there is none |
| Slots.FindPrev | src/components/LetterInput.tsx:87-94 | returns the greatest unlocked index at or before the start, or -1 exactly when there is none. A start past the end is returned as it is, since the source reads `undefined` there |
| Slots.PasteText | src/components/LetterInput.tsx:128 | the cleaned paste has one character per ASCII letter of the clipboard text, in order, each the upper-case form of that letter; it is empty exactly when the text has no letter |
| Slots.Paste | src/components/LetterInput.tsx:124-157 | an empty cleaned paste or a disabled input changes nothing. Otherwise the k-th unlocked slot gets the k-th pasted letter while letters last, locked slots and states are untouched, and completion fires exactly when all slots are filled |
| Slots.KeepUpper | src/components/LetterInput.tsx:164 | `replace(/[^A-Z]/g, '')` gives only upper-case letters, no more than its input; which letters and in what order is stated by `KeepUpperCounts` and `KeepUpperAppend` |
| Slots.KeepUpperCounts | src/components/LetterInput.tsx:164 | every upper-case letter is kept as many times as it occurs, and nothing else is kept |
| Slots.KeepUpperAppend | src/components/LetterInput.tsx:164 | filtering a concatenation filters each part in order |
| Slots.NormalizeTitle | src/components/LetterInput.tsx:164 | the normalised title holds only upper-case letters |
| Slots.Positions | src/components/LetterInput.tsx:188-193 | the collected positions are exactly the indices holding the letter |
| Slots.LockPass | src/components/LetterInput.tsx:178-201 | the locking loop locks, and writes the title letter into, exactly the slots within the title whose letter was discovered; other slots keep their letter and lock |
| Slots.Prefill | src/components/LetterInput.tsx:160-211 | an empty title or letter list is a no-op. Otherwise slot i ends locked iff it was locked or the title's i-th letter was discovered; it then holds that letter, or its old letter if it was locked already, and every other slot is emptied |
| Slots.PrefillIdempotent | src/components/LetterInput.tsx:160-211 | prefilling twice with the same title and letters is the same as prefilling once |
| Slots.PrefillKeepsLocks | src/components/LetterInput.tsx:171-175 | a locked slot stays locked and keeps its letter, unless the title's own letter at that position is rewritten into it |
| Slots.PrefillTestMovie | src/components/__tests__/LetterInput.test.tsx:108-129 | prefilling "TESTMOVIE" with t and e locks T and E in slots 0 and 1 and leaves slot 2 empty and unlocked |
| Slots.SpacedTitleNormalized | src/components/LetterInput.tsx:164 | "THE LORD OF" normalises to "THELORDOF" |
| Slots.PrefillSpacedTitle | src/components/__tests__/LetterInput.test.tsx:144-164 | prefilling "THE LORD OF" with t, h and e writes T, H, E into slots 0 to 2 and locks them, and leaves slots 3 to 6 empty and unlocked |
| Scoring.IndexOf | src/components/MovieGuesser.tsx:96 | `indexOf` returns -1 exactly when the letter is absent, and otherwise its first position |
| Scoring.ExactPass | src/components/MovieGuesser.tsx:82-91 | after the first pass a slot is `correct` iff the title has the same letter at that position; every other slot is still `absent`; the letter count is conserved |
| Scoring.DisplacedPass | src/components/MovieGuesser.tsx:94-106 | the second pass keeps every `correct` slot, marks only non-`correct` slots `present`, leaves no unmarked letter that the pool could still supply, and hands out title letters left to right: a slot marked `present` has no earlier slot with the same letter left `absent` |
| Scoring.LeftmostStep | src/components/MovieGuesser.tsx:94-104 | one step of the slot-order `forEach` keeps the left-to-right hand-out for the slots visited so far |
| Scoring.DisplaceOne | src/components/MovieGuesser.tsx:95-104 | one step of the second pass changes only its own slot, to `present` or `absent`; it marks `present` exactly when the slot is not `correct` and its letter is still in the pool, and keeps the pool accounting |
| Scoring.Evaluate | src/components/MovieGuesser.tsx:71-106 | the two passes together mark `correct` exactly the exact matches, never leave a slot `idle`, conserve letters between marks and pool, leave the pool unable to supply any letter marked `absent`, and give `present` to the leftmost of repeated letters first |
| Scoring.Score | src/components/MovieGuesser.tsx:71-106 | the feedback has one entry per guess letter. Slot j is `correct` iff j is inside the title and the letters agree, and every slot is `correct`, `present` or `absent`. Of two slots with the same letter, neither `correct`, the later is `present` only if the earlier is |
| Scoring.ScoreRepeatedLetters | src/components/MovieGuesser.tsx:94-104 | guessing "zbb" against "bzz" gives `present`, `present`, `absent`: the one b of the title goes to the leftmost b |
| Scoring.ScoreZbbFirst | src/components/MovieGuesser.tsx:94-104 | in that guess the single z is marked `present` |
| Scoring.ScoreZbbRest | src/components/MovieGuesser.tsx:94-104 | in that guess the first b is `present` and the second `absent` |
| Scoring.ScoreCounts | src/components/MovieGuesser.tsx:79-104 | for every letter other than `'*'`, the slots holding it that are marked `correct` or `present` number min(count in guess, count in title) |
| Scoring.ScoreNeverOvercounts | src/components/MovieGuesser.tsx:79-104 | for a guess without `'*'`, no letter is marked `correct` or `present` more often than it occurs in the title |
| Scoring.PresentMeansElsewhere | src/components/MovieGuesser.tsx:94-98 | a `present` slot holds a letter that occurs in the title, but not at that position |
| Scoring.Marked | src/components/MovieGuesser.tsx:82-101 | the letters at slots of one mark are exactly the letters of those slots |
| Scoring.Accumulate | src/components/MovieGuesser.tsx:85-87 | pushing letters unless already included keeps the old list as a prefix, adds exactly the new letters, and adds no duplicates |
| Scoring.Discover | src/components/MovieGuesser.tsx:76-109 | the new list of discovered letters extends the old one, adds exactly the letters marked `correct` or `present`, and never holds a letter twice |
| Scoring.AccumulateKnown | src/components/MovieGuesser.tsx:85-101 | pushing only letters already in the list leaves it unchanged |
| Scoring.DiscoverIdempotent | src/components/MovieGuesser.tsx:76-109 | re-applying the same evaluation adds no letter |
| Game.Normalize | src/components/MovieGuesser.tsx:57-58 | the normalised guess or title is the trimmed string lower-cased, and holds no upper-case letter |
| Game.IsWin | src/components/MovieGuesser.tsx:57-60 | a guess wins exactly when it and the title agree once trimmed and lower-cased; strings differing only in case always win, and a win needs equally long trimmed strings |
| Game.NormalizeLetters | src/components/MovieGuesser.tsx:57-58 | normalising a string of letters leaves only letters |
| Game.Initial | src/components/MovieGuesser.tsx:15-20 | a round starts playing, with no attempts, no discovered letters and no guess in progress |
| Game.HandleGuess | src/components/MovieGuesser.tsx:51-148 | with no movie, a finished game, or a guess in progress, nothing changes. A winning guess sets `won` and 100% and keeps attempts and letters. A wrong guess adds one attempt and records the feedback and discovered letters. It loses exactly on reaching three attempts, at 100% with the unsolved message, and otherwise reveals the scheduled percentage with the number of clues left. A win shows the solved message. Clearing is scheduled exactly when every letter is absent; otherwise the prefill is scheduled with the title and the new letter list |
| Game.Settle | src/components/MovieGuesser.tsx:119-133 | the delayed callback clears the in-progress flag and changes nothing else |
| Game.NewGame | src/components/MovieGuesser.tsx:38-49 | a new game resets attempts, status, reveal, message, letters and the in-progress flag to the initial round, keeping the movie |
| Game.InitialValid | src/components/MovieGuesser.tsx:11-20 | the initial state satisfies the round invariant and shows 30% |
| Game.GuessPreservesValid | src/components/MovieGuesser.tsx:136-146 | a guess keeps the round invariant: attempts at most three, reveal matching the schedule while playing, 100% once over, no repeated letter. It never lowers the reveal or the attempt count, and only extends the letter list |
| Game.SettlePreservesValid | src/components/MovieGuesser.tsx:119-133 | the delayed callback keeps the invariant and lets a game still playing accept guesses again |
| Game.TerminalIsFinal | src/components/MovieGuesser.tsx:52 | a won or lost game shows the full poster and ignores every guess |
| Game.WinningGuess | src/components/MovieGuesser.tsx:62-68 | a matching guess wins at once with the full poster and the attempt count kept |
| Game.ThirdWrongGuessLoses | src/components/MovieGuesser.tsx:136-146 | from a fresh round, three wrong guesses with callbacks in between reveal 60%, then 100% while still playing, then lose |
| Game.GuessWhileBusyIgnored | src/components/MovieGuesser.tsx:52-55 | a second guess before the delayed callback leaves the state unchanged |
| Game.LettersOnlyGuessCannotWin | src/components/MovieGuesser.tsx:57-60 | when the normalised title holds a non-letter, such as an inner space, no guess made only of letters wins |
| Game.SpacedGuessMatches | src/components/MovieGuesser.tsx:57-60 | " the matrix " wins against "The Matrix": case and surrounding spaces do not matter |
| Game.SlotGuessLosesMatrix | src/components/MovieGuesser.tsx:57-60 | "THEMATRIX", all the letter slots can produce, does not win against "The Matrix" |
| GuessInput.GuessLength | src/components/MovieGuessInput.tsx:27 | the slot count is 10 for an empty title; otherwise it is the number of ASCII letters of the title, so no more than its length, and zero exactly when the title has no letter |
| GuessInput.HandleGuessComplete | src/components/MovieGuessInput.tsx:20-24 | a completed guess is dropped exactly when the input is disabled or the guess is blank; otherwise the trimmed, non-empty guess is passed on |
| GuessInput.NormalizeTitleIsUpperLetters | src/components/LetterInput.tsx:164 | upper-casing and then keeping A–Z gives the upper-cased letters of the title |
| GuessInput.SlotCountMatchesTitle | src/components/MovieGuessInput.tsx:27 | for a non-empty title, the slot count equals the length of the input's normalised title, so prefill can reach every slot |
| GuessInput.LetterGuessForwarded | src/components/MovieGuessInput.tsx:20-24 | a guess of letters from enabled slots reaches the game unchanged |
| RevealMask.ToInt32 | src/utils/canvasUtils.ts:132 | `hash & hash` gives the signed 32-bit integer congruent to its input modulo 2^32 |
| RevealMask.ToInt32Congruent | src/utils/canvasUtils.ts:132 | values congruent modulo 2^32 convert to the same 32-bit integer |
| RevealMask.HashStep | src/utils/canvasUtils.ts:131-132 | one step of the hash yields a 32-bit integer |
| RevealMask.HashFrom | src/utils/canvasUtils.ts:129-133 | the hash loop stays within 32-bit integers |
| RevealMask.SimpleHash | src/utils/canvasUtils.ts:127-135 | the hash is a natural number at most 2^31 |
| RevealMask.HashStepIsTimes31 | src/utils/canvasUtils.ts:131-132 | `(hash << 5) - hash + code` wrapped to 32 bits is 31·hash + code wrapped to 32 bits |
| RevealMask.PolyHashCongruent | src/utils/canvasUtils.ts:129-133 | the unwrapped polynomial fold respects congruence modulo 2^32 |
| RevealMask.HashFromIsWrappedPoly | src/utils/canvasUtils.ts:128-133 | wrapping after every step gives the same value as folding 31·h + code without wrapping and wrapping once |
| RevealMask.SimpleHashIsPolynomial | src/utils/canvasUtils.ts:127-135 | the hash is the absolute value of the int32 wrap of the base-31 polynomial of the character codes |
| RevealMask.Seed | src/utils/canvasUtils.ts:62 | the seed has one character per character of the joined letters, in order, each the same letter with no upper case |
| RevealMask.CellKey | src/utils/canvasUtils.ts:67 | a cell's key is at most 2^31 and is the hash polynomial of the cell index, `-` and the seed, wrapped to int32, made non-negative |
| RevealMask.Insert | src/utils/canvasUtils.ts:65-70 | inserting a cell adds exactly that cell to the sequence |
| RevealMask.InsertSorted | src/utils/canvasUtils.ts:65-70 | inserting a cell larger than all before it into a sequence sorted by key, with ties by index, keeps it sorted |
| RevealMask.Sort | src/utils/canvasUtils.ts:65-70 | the stable sort of increasing cells is a permutation of them, ordered by key with ties in index order |
| RevealMask.Cells | src/utils/canvasUtils.ts:57 | the initial cell array holds 0 to 224 in order |
| RevealMask.SortCellsIsPermutation | src/utils/canvasUtils.ts:57-70 | sorting the cells by any key gives a permutation of the 225 cells |
| RevealMask.Order | src/utils/canvasUtils.ts:60-70 | the cell order for a seed is a permutation of the 225 cells, sorted by the seed's hash key with ties by index |
| RevealMask.OrderIsUnique | src/utils/canvasUtils.ts:60-70 | any permutation of the cells sorted by the seed's key is that order, so the same letters always give the same reveal |
| RevealMask.SortedUnique | src/utils/canvasUtils.ts:65-70 | two sequences with the same elements, both sorted by key with ties by index, are equal |
| RevealMask.CellsToReveal | src/utils/canvasUtils.ts:52-53 | the count is the floor of p·225/100, and lies in 0..224 for 0 ≤ p < 100 |
| RevealMask.ApplyRevealMask | src/utils/canvasUtils.ts:33-122 | at 100% or more no mask is drawn. Below that the order is a permutation of the cells: the seeded sort when letters are known, the shuffle otherwise. The count is the floor of p·225/100 |
| RevealMask.RevealedCount | src/utils/canvasUtils.ts:89-104 | below 100% exactly `cellsToReveal` cells are revealed, the first ones of the order, and every other cell is covered |
| RevealMask.RevealMonotone | src/utils/canvasUtils.ts:53-96 | for the same letters and shuffle, a cell visible at one percentage stays visible at any larger one |
| RevealMask.SeedFollowsDiscoveryOrder | src/utils/canvasUtils.ts:62 | the seed follows the letters' discovery order: any two letters differing other than in case give different seeds when discovered in the other order |
| RevealMask.CoverColor | src/utils/canvasUtils.ts:106 | a covered cell's colour index is one of the four colours: the closed-form hash of the cell index and `-color` modulo 4, so it depends only on the cell |
| RevealMask.Position | src/utils/canvasUtils.ts:91-92 | the row and column are within the grid and identify the cell |
| Obfuscation.XorBitsTwice | src/utils/encryption.ts:19-45 | bitwise XOR with the same value twice gives back the input |
| Obfuscation.XorBitsBound | src/utils/encryption.ts:20 | XOR of two values below 2^k is below 2^k |
| Obfuscation.Xor | src/utils/encryption.ts:20 | XORing the result with the key unit gives back the input unit, and two bytes XOR to a byte |
| Obfuscation.XorTwice | src/utils/encryption.ts:19-45 | XOR of code units is self-inverse |
| Obfuscation.XorKeepsBytes | src/utils/encryption.ts:20 | a byte XORed with an ASCII key character is still a byte |
| Obfuscation.XorKeepsWide | src/utils/encryption.ts:20-25 | a code unit above 255 XORed with an ASCII key character stays above 255 |
| Obfuscation.KeyIsAscii | src/utils/encryption.ts:7 | the key is the 15 ASCII code units of "CINEMYSTERY_KEY" |
| Obfuscation.KeyAt | src/utils/encryption.ts:20 | the key unit used at position i is the key's unit i mod 15, and it is ASCII |
| Obfuscation.XorStage | src/utils/encryption.ts:19-45 | the XOR stage keeps the length and combines unit i with key unit i mod 15 |
| Obfuscation.XorStageInvolution | src/utils/encryption.ts:19-45 | the XOR stage applied twice gives back the input |
| Obfuscation.XorStageBytes | src/utils/encryption.ts:20-25 | the XOR stage yields only bytes exactly when its input is only bytes |
| Obfuscation.DigitValue | src/utils/encryption.ts:38 | a code unit has a base64 value exactly when it is the digit of that value, as Table 1 of RFC 4648 assigns them |
| Obfuscation.EncodeGroup | src/utils/encryption.ts:25 | three bytes give four 6-bit groups |
| Obfuscation.DecodeGroup | src/utils/encryption.ts:38 | four 6-bit groups give three bytes |
| Obfuscation.DecodeEncodeGroup | src/utils/encryption.ts:25-38 | decoding the four groups of three bytes gives back those bytes |
| Obfuscation.EncodeSextets | src/utils/encryption.ts:25 | encoding bytes gives 4 sextets per 3 bytes, plus one more than the remainder for a partial group |
| Obfuscation.DecodeSextets | src/utils/encryption.ts:38 | decoding sextets gives bytes, 3 per full group of 4 plus one less than the remainder |
| Obfuscation.DecodeEncodeSextets | src/utils/encryption.ts:25-38 | decoding the sextets of an encoding gives back the bytes |
| Obfuscation.Btoa | src/utils/encryption.ts:25 | `btoa` succeeds exactly on byte strings, and its output length is 4·ceil(n/3) |
| Obfuscation.StripWhitespace | src/utils/encryption.ts:38 | `atob` first drops ASCII white space: the result holds none, and a string without white space is kept as it is |
| Obfuscation.StripWhitespaceCounts | src/utils/encryption.ts:38 | every unit other than ASCII white space is kept as many times as it occurs |
| Obfuscation.StripWhitespaceAppend | src/utils/encryption.ts:38 | stripping a concatenation strips each part in order, so kept units keep their order |
| Obfuscation.DropPadding | src/utils/encryption.ts:38 | the result is a prefix of the input and what is removed is nothing, one `=` or two `=`; nothing is removed unless the length is a multiple of 4 ending in `=` |
| Obfuscation.DigitValues | src/utils/encryption.ts:38 | the digit values exist exactly when every unit is a base64 digit, and are then those values in order |
| Obfuscation.Atob | src/utils/encryption.ts:38 | `atob` yields only bytes. After white space and then padding are dropped, it fails exactly when the length is 1 modulo 4 or a unit is outside the base64 alphabet; otherwise every 4 digits give 3 bytes and a final 2 or 3 digits give 1 or 2 |
| Obfuscation.AtobUnpadded | src/utils/encryption.ts:38 | an encoding with its `=` padding left off is still accepted and decodes to the original bytes |
| Obfuscation.AtobIgnoresWhitespace | src/utils/encryption.ts:38 | ASCII white space inserted anywhere in the input does not change the result |
| Obfuscation.StripWhitespaceSkips | src/utils/encryption.ts:38 | stripping white space from a string with a run of white space inserted gives what stripping the string alone gives |
| Obfuscation.StripWhitespaceBlank | src/utils/encryption.ts:38 | a run of white space strips to nothing |
| Obfuscation.AtobForgiving | src/utils/encryption.ts:38 | "QQ" and "QR" both decode to "A": padding may be missing and nonzero leftover bits are dropped |
| Obfuscation.AtobTwoDigits | src/utils/encryption.ts:38 | two digits with values x and y decode to the one byte 4x + y/16 |
| Obfuscation.DigitValuesOfDigits | src/utils/encryption.ts:25-38 | reading back the digits of sextets gives the sextets |
| Obfuscation.BtoaShape | src/utils/encryption.ts:25 | `btoa`'s output is the digits of the sextets followed by two, one or no `=` for a remainder of 1, 2 or 0 |
| Obfuscation.PaddedLength | src/utils/encryption.ts:25 | the digits and the padding of any number of bytes fill whole groups of four |
| Obfuscation.DropPaddingOfEncoding | src/utils/encryption.ts:25-38 | removing the padding of an encoding leaves exactly its digits |
| Obfuscation.AtobBtoa | src/utils/encryption.ts:25-38 | `atob` of `btoa` of a byte string gives it back |
| Obfuscation.Encrypt | src/utils/encryption.ts:14-26 | the empty text encrypts to the empty string. Encryption fails, as `btoa` throws, exactly when a code unit is above 255; otherwise it is the base64 of the XORed text |
| Obfuscation.Decrypt | src/utils/encryption.ts:33-52 | the empty string and malformed base64 (input on which `Obfuscation.Atob` fails) both decrypt to the empty string; otherwise decryption is the XOR of the decoded bytes |
| Obfuscation.RoundTrip | src/utils/encryption.ts:14-52 | decrypting the encryption of any text of code units at most 255 gives the text back |
| Obfuscation.DecryptGivesBytes | src/utils/encryption.ts:33-52 | decryption only ever produces code units at most 255 |
| Obfuscation.MalformedDecryptsEmpty | src/utils/encryption.ts:36-51 | a five-digit input and one with a non-base64 character decrypt to the empty string |
| Proxy.TitleKey | src/api/proxy.ts:18 | the title key is `title:` followed by the title lower-cased character by character |
| Proxy.IdKey | src/api/proxy.ts:70 | the id key is `id:` followed by the id unchanged |
| Proxy.PageOf | src/api/proxy.ts:42 | the page is 1 when left out and the argument otherwise |
| Proxy.SearchKey | src/api/proxy.ts:45 | the search key is `search:`, the lower-cased term, `:` and the decimal page |
| Proxy.SearchKeysIdentify | src/api/proxy.ts:45 | two search keys agree exactly when the lower-cased terms and the pages agree |
| Proxy.Memo | src/api/proxy.ts:19-27 | a hit returns the stored value without fetching. A miss fetches once, and on success stores the value under the key and leaves other keys alone; a failed fetch stores nothing |
| Proxy.ByTitle | src/api/proxy.ts:13-30 | a title lookup hits on `title:` plus the lower-cased title; otherwise it returns what the fetch gives for the title as passed, stores a success under the key and stores nothing on failure; the search cache is untouched |
| Proxy.ById | src/api/proxy.ts:65-82 | an id lookup hits on `id:` plus the id; otherwise it returns the fetch result, stores a success under the key and stores nothing on failure; the search cache is untouched |
| Proxy.Search | src/api/proxy.ts:39-57 | a search hits on the search key; otherwise it fetches with the term and the page, 1 by default, stores a success under the key and stores nothing on failure; the movie cache is untouched |
| Proxy.Random | src/api/proxy.ts:89-94 | the random lookup always fetches and changes no cache |
| Proxy.MissStores | src/api/proxy.ts:24-27 | after a title miss the movie cache gains exactly the fetched movie under the title key, or nothing when the fetch fails |
| Proxy.CaseInsensitiveTitles | src/api/proxy.ts:18-21 | after a successful lookup, a title differing only in case is served from the cache without fetching |
| Proxy.TitleAndIdKeysDisjoint | src/api/proxy.ts:4-79 | a title key never equals an id key in the shared movie cache |
| Proxy.KeysIdentify | src/api/proxy.ts:18-70 | title keys agree exactly when the lower-cased titles agree, and id keys exactly when the ids agree, case kept |
| Proxy.IdLookupKeepsTitles | src/api/proxy.ts:70-79 | an id lookup never alters a cached title entry |
| Proxy.SearchDefaultsToFirstPage | src/api/proxy.ts:42-45 | a search without a page behaves exactly like one for page 1 |
| Proxy.RandomNeverCached | src/api/proxy.ts:89-94 | a second random lookup still fetches and returns the new answer |
| DevProxy.ApiKey | vite.config.ts:21 | the key is the environment's value when set and non-empty, otherwise the default `e1b491a3` |
| DevProxy.StripPrefix | vite.config.ts:27 | a path starting with `/api/movies` is that prefix plus the result; any other path is kept |
| DevProxy.ViteRewrite | vite.config.ts:19-31 | the rewrite ends in `apikey=` and the key, preceded by `&` exactly when the path holds `?`, else `?`; before that comes the path with one leading `/api/movies` removed |
| DevProxy.VitestRewrite | vitest.config.ts:13-25 | the test configuration's separate copy of the rewrite agrees with the dev server's on every path and environment |
| DevProxy.PrefixRemovedOnce | vite.config.ts:27 | a doubled prefix loses only its first copy |
| DevProxy.NoSegmentBoundary | vite.config.ts:27 | the prefix is removed even when no `/` follows it, and an empty environment value falls back to the default key |
| DevProxy.OtherPathKept | vite.config.ts:27-30 | a path without the prefix is kept and only gains the query parameter |

## Left out

- JSX rendering, focus moves, `handleKeyDown` and the `inputRefs` effects of `LetterInput.tsx` are presentation only. `setLetterStates` just stores the array it is given; its content is `Game.HandleGuess`'s feedback.
- The `setTimeout` callbacks of `handleGuess` become the `Game.Settle` event, with no timing. The win branch schedules no callback, so after a win the in-progress flag stays set. The parent's `letterInputRef` calls (clear, prefill) are recorded as the `Effect` of a guess, not composed with the slots: `MovieGuessInput` does not forward that ref, so those calls do nothing in the app.
- The message texts are kept only as which message is shown. The confetti call is the `Celebrate` effect.
- Case mapping is ASCII-only. JavaScript's full Unicode `toLowerCase`/`toUpperCase`, for example on accented letters or `ß`, is not modelled.
- `Math.floor((p / 100) * 225)` is modelled over integers as `(p * 225) / 100`. For integer p from 0 to 100 the two agree; floating-point rounding for other p is not modelled.
- The `Math.random` Fisher–Yates shuffle (`shuffleArray`) is a parameter of `RevealMask.ApplyRevealMask`: any permutation of the cells.
- Canvas drawing, `clearRect`/`fillRect` calls, the colours' RGBA values and `loadImage` are browser I/O. Only the revealed-cell choice, positions and colour indices are modelled.
- `MoviePoster.tsx`, `animationUtils.ts` and `borderAnimation.ts` (effects and float animation) are not part of this model, and neither is the plot redaction through a `RegExp` built from the title.
- Network and HTTP code (`movies.ts`, `client.ts`, `movieQueries.ts`), the proxy's `configure` error logging, and `console.error` in `decryptText` are not part of this model. The fetch functions are oracle parameters.
- Concurrent cache misses in `proxy.ts` (two requests in flight for one key) are not modelled: each call is atomic.
- A change of the `length` prop after mount is not modelled; the slot arrays keep the length they were created with.
- Obfuscation.Encrypt: a text with a code unit above 255 makes `btoa` throw uncaught; this is modelled as `None` rather than as an exception.
- `handleNewGame` also calls the query's `refetch()` to load another movie. That request is network I/O and is not modelled: `Game.NewGame` keeps the current movie until a new one is supplied.
- Strings in `Game`, `Scoring`, `Slots`, `RevealMask` and `Proxy` are sequences of Unicode scalar values, while JavaScript strings are UTF-16 code units. A character outside the Basic Multilingual Plane counts as one character here and as two code units in the source, which changes `length`, `split('')` and `charCodeAt` for such text. `Obfuscation` works on code units directly.
- The search page is an integer, while the source's `page` is any JavaScript number. A fractional page, rendered by the template string with a decimal point, is not modelled, and neither is a page of magnitude 10^21 or more, which JavaScript renders in exponent form (`1e+21`); `Strings.IntToString` always writes every digit.

=== FILE: devproxy.dfy ===
/** The `rewrite(path)` hook of the development server's `/api/movies`
    proxy, written out in vite.config.ts and again in vitest.config.ts. The
    environment variable is a parameter: `None` when it is unset. */
module DevProxy {
  import opened Strings

  const Prefix: string := "/api/movies"

  /** The key used when the environment provides none. */
  const DefaultKey: string := "e1b491a3"

  /** `process.env.VITE_OMDB_API_KEY || 'e1b491a3'`: an unset or empty
      variable falls back to the default. */
  function ApiKey(env: Option<string>): (r: string)
    ensures r != ""
    ensures env.Some? && env.value != "" ==> r == env.value
    ensures env.None? || env.value == "" ==> r == DefaultKey
  {
    if env.Some? && env.value != "" then env.value else DefaultKey
  }

  /** `path.replace(/^\/api\/movies/, '')`: one leading occurrence, no
      segment boundary required. */
  function StripPrefix(path: string): (r: string)
    ensures StartsWith(path, Prefix) ==> Prefix + r == path
    ensures !StartsWith(path, Prefix) ==> r == path
  {
    if StartsWith(path, Prefix) then path[|Prefix|..] else path
  }

  /** The query parameter appended to every path. */
  function KeyParam(env: Option<string>): string
  {
    "apikey=" + ApiKey(env)
  }

  /** The rewrite of vite.config.ts. The result is the path without its
      prefix, then `&` when the original path already had a `?` and `?`
      otherwise, then the key parameter. */
  function ViteRewrite(path: string, env: Option<string>): (r: string)
    ensures var q := KeyParam(env);
            && |r| > |q|
            && r[|r| - |q|..] == q
            && r[|r| - |q| - 1] == (if '?' in path then '&' else '?')
            && (StartsWith(path, Prefix) ==> Prefix + r[..|r| - |q| - 1] == path)
            && (!StartsWith(path, Prefix) ==> r[..|r| - |q| - 1] == path)
  {
    var apiKey := ApiKey(env);
    var hasParams := '?' in path;
    var basePath := StripPrefix(path);
    basePath + [if hasParams then '&' else '?'] + "apikey=" + apiKey
  }

  /** The rewrite of vitest.config.ts, a copy of the other; it agrees with it
      on every path and environment. */
  function VitestRewrite(path: string, env: Option<string>): (r: string)
    ensures r == ViteRewrite(path, env)
  {
    var apiKey := if env.Some? && env.value != "" then env.value else DefaultKey;
    var hasParams := '?' in path;
    var basePath := if StartsWith(path, Prefix) then path[|Prefix|..] else path;
    basePath + [if hasParams then '&' else '?'] + "apikey=" + apiKey
  }

  /** Only one leading prefix is removed. */
  lemma PrefixRemovedOnce()
    ensures ViteRewrite("/api/movies/api/movies/x", None) == "/api/movies/x?apikey=e1b491a3"
  {
    assert StartsWith("/api/movies/api/movies/x", Prefix);
    assert "/api/movies/api/movies/x"[|Prefix|..] == "/api/movies/x";
    assert '?' !in "/api/movies/api/movies/x";
  }

  /** The prefix need not end at a path segment. */
  lemma NoSegmentBoundary()
    ensures ViteRewrite("/api/moviesfoo?t=x", Some("")) == "foo?t=x&apikey=e1b491a3"
  {
    assert StartsWith("/api/moviesfoo?t=x", Prefix);
    assert "/api/moviesfoo?t=x"[|Prefix|..] == "foo?t=x";
    assert "/api/moviesfoo?t=x"[14] == '?';
  }

  /** A path elsewhere keeps its text; only the key is appended. */
  lemma OtherPathKept()
    ensures ViteRewrite("/other", Some("k")) == "/other?apikey=k"
  {
    assert !StartsWith("/other", Prefix);
    assert '?' !in "/other";
  }
}

=== FILE: game.dfy ===
/** The game state machine of src/components/MovieGuesser.tsx: `handleGuess`,
    `handleNewGame`, and the event that stands for the delayed callbacks the
    guess schedules. */
module Game {
  import opened Strings
  import opened Slots
  import opened Scoring

  const MaxAttempts: nat := 3

  /** Reveal percentage indexed by the number of wrong guesses so far. */
  const RevealSchedule: seq<nat> := [30, 60, 100]

  datatype Status = Playing | Won | Lost

  /** The fetched movie; only its title takes part in the game's logic. */
  datatype Movie = Movie(title: string)

  /** The message line shown under the input. */
  datatype Message = Blank | Solved(title: string) | Unsolved(title: string) | CluesLeft(n: int)

  /** What a guess leaves for later: the confetti of a win, or the delayed
      callback that clears the input (no letter scored) or prefills the
      discovered letters (some letter scored). */
  datatype Effect = NoEffect | Celebrate | ClearLater | PrefillLater(title: string, letters: string)

  datatype Game = Game(
    movie: Option<Movie>,
    attempts: nat,
    status: Status,
    percent: nat,         // `revealPercentage`
    message: Message,
    found: string,        // `correctLetters`, in discovery order
    inProgress: bool)     // `guessInProgress`

  /** The result of `handleGuess`: the new state, the per-slot feedback
      handed to the input, and the effect left pending. */
  datatype Step = Step(game: Game, feedback: seq<LetterState>, effect: Effect)

  /** The state the component's hooks start in. */
  function Initial(movie: Option<Movie>): (r: Game)
    ensures r.status == Playing && r.attempts == 0 && r.found == [] && !r.inProgress
  {
    Game(movie, 0, Playing, RevealSchedule[0], Blank, [], false)
  }

  /** `guess.toLowerCase().trim()`: case and surrounding space are ignored,
      inner spaces and punctuation are kept. */
  function Normalize(s: string): (r: string)
    ensures r == LowerStr(Trim(s))
    ensures forall i :: 0 <= i < |r| ==> !IsUpper(r[i])
  {
    TrimLower(s);
    Trim(LowerStr(s))
  }

  /** The win test: the guess and the title agree once both are trimmed and
      compared without regard to case. Strings that differ only in case
      always match, and a match needs equally long trimmed strings. */
  function IsWin(guess: string, title: string): (r: bool)
    ensures r <==> LowerStr(Trim(guess)) == LowerStr(Trim(title))
    ensures LowerStr(guess) == LowerStr(title) ==> r
    ensures r ==> |Trim(guess)| == |Trim(title)|
  {
    Normalize(guess) == Normalize(title)
  }

  predicate Accepts(game: Game)
  {
    game.movie.Some? && game.status == Playing && !game.inProgress
  }

  predicate AllAbsent(states: seq<LetterState>)
  {
    forall i :: 0 <= i < |states| ==> states[i] == Absent
  }

  /** `handleGuess(guess)`. */
  function HandleGuess(game: Game, guess: string): (r: Step)
    ensures !Accepts(game) ==> r == Step(game, [], NoEffect)
    ensures Accepts(game) ==> r.game.inProgress && r.game.movie == game.movie
    ensures Accepts(game) && IsWin(guess, game.movie.value.title) ==>
              && r.game.status == Won && r.game.percent == 100
              && r.game.attempts == game.attempts && r.game.found == game.found
              && r.effect == Celebrate && r.feedback == []
              && r.game.message == Solved(game.movie.value.title)
    ensures Accepts(game) && !IsWin(guess, game.movie.value.title) ==>
              var g := Normalize(guess);
              var t := Normalize(game.movie.value.title);
              && r.game.attempts == game.attempts + 1
              && r.feedback == Score(g, t)
              && r.game.found == Discover(game.found, g, Score(g, t))
              && (r.game.status == Lost <==> r.game.attempts >= MaxAttempts)
              && (r.game.status == Lost ==> r.game.percent == 100
                                            && r.game.message == Unsolved(game.movie.value.title))
              && (r.game.status != Lost ==> r.game.status == Playing
                                            && r.game.percent == RevealSchedule[r.game.attempts]
                                            && r.game.message == CluesLeft(MaxAttempts - r.game.attempts))
              && (r.effect == ClearLater <==> AllAbsent(r.feedback))
              && (!AllAbsent(r.feedback) ==> r.effect == PrefillLater(game.movie.value.title, r.game.found))
  {
    if !Accepts(game) then Step(game, [], NoEffect)
    else
      var title := game.movie.value.title;
      var busy := game.(inProgress := true);
      if IsWin(guess, title) then
        Step(busy.(status := Won, percent := 100, message := Solved(title)), [], Celebrate)
      else
        var g := Normalize(guess);
        var t := Normalize(title);
        var states := Score(g, t);
        var found := Discover(game.found, g, states);
        var effect := if AllAbsent(states) then ClearLater else PrefillLater(title, found);
        var attempts := game.attempts + 1;
        var next :=
          if attempts >= MaxAttempts then
            busy.(found := found, attempts := attempts, status := Lost, percent := 100, message := Unsolved(title))
          else
            busy.(found := found, attempts := attempts, percent := RevealSchedule[attempts],
                  message := CluesLeft(MaxAttempts - attempts));
        Step(next, states, effect)
  }

  /** The delayed callback of a wrong guess firing: it lifts the in-progress
      guard and touches nothing else of the game. */
  function Settle(game: Game): (r: Game)
    ensures !r.inProgress
    ensures r.(inProgress := game.inProgress) == game
  {
    game.(inProgress := false)
  }

  /** `handleNewGame`: every round-scoped field goes back to its initial
      value; the movie itself is replaced later by the refetch. */
  function NewGame(game: Game): (r: Game)
    ensures r == Initial(game.movie)
  {
    game.(attempts := 0, status := Playing, percent := RevealSchedule[0], message := Blank,
          found := [], inProgress := false)
  }

  /** What every reachable state satisfies. */
  ghost predicate Valid(game: Game)
  {
    && game.attempts <= MaxAttempts
    && game.percent <= 100
    && (game.status == Playing ==> game.attempts < MaxAttempts && game.percent == RevealSchedule[game.attempts])
    && (game.status == Won ==> game.attempts < MaxAttempts && game.percent == 100)
    && (game.status == Lost ==> game.attempts == MaxAttempts && game.percent == 100)
    && NoDup(game.found)
  }

  lemma InitialValid(movie: Option<Movie>)
    ensures Valid(Initial(movie))
    ensures Initial(movie).percent == 30
  {
  }

  /** A guess keeps the state valid, never lowers the revealed percentage or
      the attempt count, and only ever extends the discovered letters. */
  lemma {:induction false} GuessPreservesValid(game: Game, guess: string)
    requires Valid(game)
    ensures Valid(HandleGuess(game, guess).game)
    ensures game.percent <= HandleGuess(game, guess).game.percent
    ensures game.attempts <= HandleGuess(game, guess).game.attempts <= MaxAttempts
    ensures game.found <= HandleGuess(game, guess).game.found
  {
    var r := HandleGuess(game, guess).game;
    if Accepts(game) && !IsWin(guess, game.movie.value.title) {
      assert r.attempts == game.attempts + 1;
      assert game.percent == RevealSchedule[game.attempts];
      if game.attempts == 0 {
        assert r.percent == 60;
      } else {
        assert r.percent == 100;
      }
    }
  }

  lemma SettlePreservesValid(game: Game)
    requires Valid(game)
    ensures Valid(Settle(game))
    ensures game.status == Playing && game.movie.Some? ==> Accepts(Settle(game))
  {
  }

  /** A won or lost game shows the whole poster and ignores guesses. */
  lemma TerminalIsFinal(game: Game, guess: string)
    requires Valid(game) && game.status != Playing
    ensures game.percent == 100
    ensures HandleGuess(game, guess).game == game
  {
  }

  /** A guess that matches the title wins at once, leaving the attempt count
      and the discovered letters as they were. */
  lemma WinningGuess(game: Game, guess: string)
    requires Valid(game) && Accepts(game)
    requires IsWin(guess, game.movie.value.title)
    ensures HandleGuess(game, guess).game.status == Won
    ensures HandleGuess(game, guess).game.percent == 100
    ensures HandleGuess(game, guess).game.attempts == game.attempts
  {
  }

  /** From a fresh round, wrong guesses separated by their delayed callbacks
      go 30 -> 60 -> 100 while still playing, and only the third one loses. */
  lemma ThirdWrongGuessLoses(movie: Movie, g1: string, g2: string, g3: string)
    requires !IsWin(g1, movie.title) && !IsWin(g2, movie.title) && !IsWin(g3, movie.title)
    ensures var s1 := HandleGuess(Initial(Some(movie)), g1).game;
            var s2 := HandleGuess(Settle(s1), g2).game;
            var s3 := HandleGuess(Settle(s2), g3).game;
            && s1.status == Playing && s1.percent == 60 && s1.attempts == 1
            && s2.status == Playing && s2.percent == 100 && s2.attempts == 2
            && s3.status == Lost && s3.percent == 100 && s3.attempts == 3
  {
  }

  /** A second guess before the delayed callback has fired is ignored. */
  lemma GuessWhileBusyIgnored(game: Game, g1: string, g2: string)
    requires Accepts(game)
    ensures var s := HandleGuess(game, g1).game;
            HandleGuess(s, g2).game == s
  {
  }

  /** The win test keeps the title's inner spaces: when the trimmed,
      lower-cased title holds a non-letter, a guess made only of letters
      (which is all the letter slots can produce) never wins. */
  lemma {:induction false} LettersOnlyGuessCannotWin(guess: string, title: string)
    requires forall i :: 0 <= i < |guess| ==> IsLetter(guess[i])
    requires exists i :: 0 <= i < |Normalize(title)| && !IsLetter(Normalize(title)[i])
    ensures !IsWin(guess, title)
  {
    var n := Normalize(guess);
    NormalizeLetters(guess);
    var t := Normalize(title);
    var i :| 0 <= i < |t| && !IsLetter(t[i]);
    assert i >= |n| || n[i] != t[i];
  }

  /** Normalising a string of letters only lower-cases it, so every
      character of the result is still a letter. */
  lemma NormalizeLetters(guess: string)
    requires forall i :: 0 <= i < |guess| ==> IsLetter(guess[i])
    ensures forall k :: 0 <= k < |Normalize(guess)| ==> IsLetter(Normalize(guess)[k])
  {
    var n := LowerStr(guess);
    assert forall k :: 0 <= k < |n| ==> IsLetter(n[k]);
    if n != [] {
      assert !IsSpace(n[0]) && !IsSpace(n[|n| - 1]);
      TrimFrame([], n, []);
      assert [] + n + [] == n;
    }
  }

  /** The case and surrounding spaces of a guess do not matter. */
  lemma SpacedGuessMatches()
    ensures IsWin(" the matrix ", "The Matrix")
  {
    MatrixTitle();
    assert Normalize(" the matrix ") == "the matrix" by {
      assert LowerStr(" the matrix ") == " " + "the matrix" + " ";
      TrimFrame(" ", "the matrix", " ");
    }
  }

  lemma MatrixTitle()
    ensures Normalize("The Matrix") == "the matrix"
  {
    assert LowerStr("The Matrix") == [] + "the matrix" + [];
    TrimFrame([], "the matrix", []);
  }

  /** The letter slots turn "The Matrix" into "THEMATRIX", which never wins. */
  lemma SlotGuessLosesMatrix()
    ensures !IsWin("THEMATRIX", "The Matrix")
  {
    MatrixTitle();
    assert Normalize("The Matrix")[3] == ' ';
    LettersOnlyGuessCannotWin("THEMATRIX", "The Matrix");
  }
}

=== FILE: guessinput.dfy ===
/** The glue of src/components/MovieGuessInput.tsx: the number of letter
    slots for a title, and the filter between a completed slot row and the
    game's guess handler. */
module GuessInput {
  import opened Strings
  import opened Slots

  /** The slot count used when no title is known yet. */
  const DefaultLength: nat := 10

  predicate Blank(s: string)
  {
    forall i :: 0 <= i < |s| ==> IsSpace(s[i])
  }

  /** `guessLength`: one slot per ASCII letter of the title, or the default
      when the title is empty. */
  function GuessLength(title: string): (r: nat)
    ensures title == "" ==> r == DefaultLength
    ensures title != "" ==> r == |Letters(title)| <= |title|
    ensures title != "" ==> (r == 0 <==> forall i :: 0 <= i < |title| ==> !IsLetter(title[i]))
  {
    if title == "" then DefaultLength
    else
      var letters := Letters(title);
      assert letters != [] ==> letters[0] in letters;
      |letters|
  }

  /** `handleGuessComplete(guess)`: the guess handed to `onGuess`, if any.
      A disabled input or a guess of nothing but spaces is dropped; otherwise
      the trimmed guess goes on, once. */
  function HandleGuessComplete(disabled: bool, guess: string): (r: Option<string>)
    ensures r.None? <==> disabled || Blank(guess)
    ensures r.Some? ==> r.value == Trim(guess) && r.value != ""
  {
    TrimBlank(guess);
    if disabled || Trim(guess) == "" then None else Some(Trim(guess))
  }

  /** The upper-cased, letters-only title the slot row prefills from is the
      title's letters, upper-cased. */
  lemma UpperStrCons(c: char, s: string)
    ensures UpperStr([c] + s) == [Upper(c)] + UpperStr(s)
  {
  }

  lemma {:induction false} NormalizeTitleIsUpperLetters(title: string)
    ensures NormalizeTitle(title) == UpperStr(Letters(title))
  {
    if title != [] {
      var c, rest := title[0], title[1..];
      assert title == [c] + rest;
      UpperStrCons(c, rest);
      var u := UpperStr(title);
      assert u[0] == Upper(c) && u[1..] == UpperStr(rest);
      assert IsUpper(Upper(c)) <==> IsLetter(c);
      NormalizeTitleIsUpperLetters(rest);
      if IsLetter(c) {
        assert Letters(title) == [c] + Letters(rest);
        UpperStrCons(c, Letters(rest));
      } else {
        assert Letters(title) == Letters(rest);
      }
    }
  }

  /** For a non-empty title there is one slot per letter of the normalised
      title, so prefill can reach every slot. */
  lemma SlotCountMatchesTitle(title: string)
    requires title != ""
    ensures GuessLength(title) == |NormalizeTitle(title)|
    ensures forall i :: 0 <= i < GuessLength(title) ==> IsUpper(NormalizeTitle(title)[i])
  {
    NormalizeTitleIsUpperLetters(title);
  }

  /** A row of letter slots completes with letters only, which trimming leaves
      alone: such a guess reaches the game exactly as completed. */
  lemma LetterGuessForwarded(guess: string)
    requires guess != "" && forall i :: 0 <= i < |guess| ==> IsLetter(guess[i])
    ensures HandleGuessComplete(false, guess) == Some(guess)
  {
    TrimFrame([], guess, []);
    assert [] + guess + [] == guess;
  }
}

=== FILE: obfuscation.dfy ===
/** `encryptText` and `decryptText` of src/utils/encryption.ts: a cyclic-key
    XOR over UTF-16 code units, wrapped in base64.

    JavaScript strings are sequences of 16-bit code units here, since the
    code works through `charCodeAt` and `String.fromCharCode`. `btoa` is the
    base64 encoding of section 4 of RFC 4648 over a string whose units are
    all at most 255, and throws otherwise; `atob` is the "forgiving-base64
    decode" of the WHATWG Infra standard, and throws where that fails. */
module Obfuscation {
  import opened Strings

  /** A UTF-16 code unit. */
  type Unit = x: int | 0 <= x < 0x1_0000

  predicate IsByte(u: Unit) { u < 256 }

  predicate AllBytes(s: seq<Unit>)
  {
    forall i :: 0 <= i < |s| ==> IsByte(s[i])
  }

  // ---------------------------------------------------------------------------
  // The XOR stage

  function Pow2(k: nat): nat
  {
    if k == 0 then 1 else 2 * Pow2(k - 1)
  }

  lemma Pow2Values()
    ensures Pow2(8) == 256 && Pow2(16) == 0x1_0000
  {
    assert Pow2(4) == 16;
    assert Pow2(8) == 256;
    assert Pow2(12) == 4096;
  }

  /** Bitwise exclusive or of two naturals, one bit at a time. */
  function XorBits(a: nat, b: nat): nat
    decreases a + b
  {
    if a == 0 && b == 0 then 0
    else 2 * XorBits(a / 2, b / 2) + (if a % 2 == b % 2 then 0 else 1)
  }

  lemma XorBitsStep(a: nat, b: nat)
    ensures XorBits(a, b) == 2 * XorBits(a / 2, b / 2) + (if a % 2 == b % 2 then 0 else 1)
  {
  }

  /** Exclusive or with the same value twice is the identity. */
  lemma {:induction false} XorBitsTwice(a: nat, b: nat)
    ensures XorBits(XorBits(a, b), b) == a
    decreases a + b
  {
    var x := XorBits(a, b);
    XorBitsStep(a, b);
    XorBitsStep(x, b);
    if a != 0 || b != 0 {
      XorBitsTwice(a / 2, b / 2);
      assert x / 2 == XorBits(a / 2, b / 2);
    } else {
      assert x == 0;
    }
  }

  /** Exclusive or of two numbers below 2^k stays below 2^k. */
  lemma {:induction false} XorBitsBound(a: nat, b: nat, k: nat)
    requires a < Pow2(k) && b < Pow2(k)
    ensures XorBits(a, b) < Pow2(k)
  {
    if k > 0 {
      XorBitsBound(a / 2, b / 2, k - 1);
    }
  }

  /** The 16-bit exclusive or `charCode ^ keyCode`. */
  function Xor(a: Unit, b: Unit): (r: Unit)
    ensures XorBits(r, b) == a
    ensures a < 256 && b < 256 ==> r < 256
  {
    Pow2Values();
    XorBitsBound(a, b, 16);
    assert a < 256 && b < 256 ==> XorBits(a, b) < 256 by {
      if a < 256 && b < 256 {
        XorBitsBound(a, b, 8);
      }
    }
    XorBitsTwice(a, b);
    XorBits(a, b)
  }

  lemma XorTwice(a: Unit, b: Unit)
    ensures Xor(Xor(a, b), b) == a
  {
    XorBitsTwice(a, b);
  }

  lemma XorKeepsBytes(a: Unit, b: Unit)
    requires a < 256 && b < 128
    ensures Xor(a, b) < 256
  {
    Pow2Values();
    XorBitsBound(a, b, 8);
  }

  lemma XorKeepsWide(a: Unit, b: Unit)
    requires a >= 256 && b < 128
    ensures Xor(a, b) >= 256
  {
    if Xor(a, b) < 256 {
      XorKeepsBytes(Xor(a, b), b);
      XorTwice(a, b);
    }
  }

  /** `ENCRYPTION_KEY`, as code units. */
  const Key: seq<Unit> := [67, 73, 78, 69, 77, 89, 83, 84, 69, 82, 89, 95, 75, 69, 89]

  lemma KeyIsAscii()
    ensures |Key| == 15 && "CINEMYSTERY_KEY" == seq(15, i requires 0 <= i < 15 => Key[i] as char)
    ensures forall i :: 0 <= i < |Key| ==> Key[i] < 128
  {
  }

  function KeyAt(i: nat): (r: Unit)
    ensures r < 128
    ensures r == Key[i % |Key|]
  {
    KeyIsAscii();
    Key[i % |Key|]
  }

  /** The loop of either function: unit `i` is combined with key unit
      `i mod 15`. */
  function XorStage(s: seq<Unit>): (r: seq<Unit>)
    ensures |r| == |s|
    ensures forall i :: 0 <= i < |s| ==> r[i] == Xor(s[i], KeyAt(i))
  {
    seq(|s|, i requires 0 <= i < |s| => Xor(s[i], KeyAt(i)))
  }

  /** Applying the stage twice gives the input back. */
  lemma XorStageInvolution(s: seq<Unit>)
    ensures XorStage(XorStage(s)) == s
  {
    forall i | 0 <= i < |s|
      ensures XorStage(XorStage(s))[i] == s[i]
    {
      XorTwice(s[i], KeyAt(i));
    }
  }

  /** The stage keeps a unit a byte exactly when it was one. */
  lemma XorStageBytes(s: seq<Unit>)
    ensures AllBytes(XorStage(s)) <==> AllBytes(s)
  {
    forall i | 0 <= i < |s|
      ensures IsByte(XorStage(s)[i]) <==> IsByte(s[i])
    {
      if s[i] < 256 {
        XorKeepsBytes(s[i], KeyAt(i));
      } else {
        XorKeepsWide(s[i], KeyAt(i));
      }
    }
  }

  // ---------------------------------------------------------------------------
  // Base64

  /** The value of a base64 digit (Table 1 of RFC 4648) as a code unit. */
  function Base64Digit(v: int): (r: Unit)
    requires 0 <= v < 64
  {
    if v < 26 then 65 + v
    else if v < 52 then 97 + (v - 26)
    else if v < 62 then 48 + (v - 52)
    else if v == 62 then 43
    else 47
  }

  const Pad: Unit := 61

  /** The value of a base64 digit, or `None` for any other unit. */
  function DigitValue(u: Unit): (r: Option<int>)
    ensures r.Some? ==> 0 <= r.value < 64 && Base64Digit(r.value) == u
    ensures forall v :: 0 <= v < 64 && Base64Digit(v) == u ==> r == Some(v)
  {
    if 65 <= u <= 90 then Some(u - 65)
    else if 97 <= u <= 122 then Some(u - 97 + 26)
    else if 48 <= u <= 57 then Some(u - 48 + 52)
    else if u == 43 then Some(62)
    else if u == 47 then Some(63)
    else None
  }

  predicate AllSextets(v: seq<int>)
  {
    forall i :: 0 <= i < |v| ==> 0 <= v[i] < 64
  }

  /** The four 6-bit groups of three bytes, most significant bits first. */
  function EncodeGroup(x: int, y: int, z: int): (r: seq<int>)
    requires 0 <= x < 256 && 0 <= y < 256 && 0 <= z < 256
    ensures |r| == 4 && AllSextets(r)
  {
    [x / 4, (x % 4) * 16 + y / 16, (y % 16) * 4 + z / 64, z % 64]
  }

  /** The three bytes held by four 6-bit groups. */
  function DecodeGroup(v: seq<int>): (r: seq<Unit>)
    requires |v| == 4 && AllSextets(v)
    ensures |r| == 3 && AllBytes(r)
  {
    [v[0] * 4 + v[1] / 16, (v[1] % 16) * 16 + v[2] / 4, (v[2] % 4) * 64 + v[3]]
  }

  /** A group of three bytes comes back from its four 6-bit groups. */
  lemma DecodeEncodeGroup(x: int, y: int, z: int)
    requires 0 <= x < 256 && 0 <= y < 256 && 0 <= z < 256
    ensures DecodeGroup(EncodeGroup(x, y, z)) == [x, y, z]
  {
    var v1, v2 := (x % 4) * 16 + y / 16, (y % 16) * 4 + z / 64;
    assert (x / 4) * 4 + v1 / 16 == x;
    assert (v1 % 16) * 16 + v2 / 4 == y;
    assert (v2 % 4) * 64 + z % 64 == z;
  }

  /** The 6-bit groups of the bytes: every 3 bytes give 4 groups, and a final
      1 or 2 bytes give 2 or 3 groups padded with zero bits. */
  function EncodeSextets(b: seq<Unit>): (r: seq<int>)
    requires AllBytes(b)
    ensures |r| == (|b| / 3) * 4 + (if |b| % 3 == 0 then 0 else |b| % 3 + 1)
    ensures AllSextets(r)
  {
    if |b| == 0 then []
    else if |b| == 1 then EncodeGroup(b[0], 0, 0)[..2]
    else if |b| == 2 then EncodeGroup(b[0], b[1], 0)[..3]
    else EncodeGroup(b[0], b[1], b[2]) + EncodeSextets(b[3..])
  }

  /** The bytes held by 6-bit groups: 4 groups give 3 bytes, a final 2 or 3
      give 1 or 2 bytes, and the leftover bits are dropped. */
  function DecodeSextets(v: seq<int>): (r: seq<Unit>)
    requires AllSextets(v) && |v| % 4 != 1
    ensures AllBytes(r)
    ensures |r| == (|v| / 4) * 3 + (if |v| % 4 == 0 then 0 else |v| % 4 - 1)
  {
    if |v| == 0 then []
    else if |v| == 2 then DecodeGroup(v + [0, 0])[..1]
    else if |v| == 3 then DecodeGroup(v + [0])[..2]
    else DecodeGroup(v[..4]) + DecodeSextets(v[4..])
  }

  lemma {:induction false} DecodeEncodeSextets(b: seq<Unit>)
    requires AllBytes(b)
    ensures DecodeSextets(EncodeSextets(b)) == b
  {
    if |b| == 1 {
      var g := EncodeGroup(b[0], 0, 0);
      DecodeEncodeGroup(b[0], 0, 0);
      assert g[..2] + [0, 0] == g;
    } else if |b| == 2 {
      var g := EncodeGroup(b[0], b[1], 0);
      DecodeEncodeGroup(b[0], b[1], 0);
      assert g[..3] + [0] == g;
    } else if |b| >= 3 {
      var g, rest := EncodeGroup(b[0], b[1], b[2]), EncodeSextets(b[3..]);
      var e := g + rest;
      assert e[..4] == g && e[4..] == rest;
      DecodeEncodeGroup(b[0], b[1], b[2]);
      DecodeEncodeSextets(b[3..]);
      assert b == [b[0], b[1], b[2]] + b[3..];
    }
  }

  function Digits(v: seq<int>): (r: seq<Unit>)
    requires AllSextets(v)
    ensures |r| == |v|
    ensures forall i :: 0 <= i < |v| ==> r[i] == Base64Digit(v[i])
  {
    seq(|v|, i requires 0 <= i < |v| => Base64Digit(v[i]))
  }

  /** `btoa(s)`: `None` where it throws, for a unit above 255. */
  function Btoa(s: seq<Unit>): (r: Option<seq<Unit>>)
    ensures r.Some? <==> AllBytes(s)
    ensures r.Some? ==> |r.value| == 4 * ((|s| + 2) / 3)
  {
    if !AllBytes(s) then None
    else
      var digits := Digits(EncodeSextets(s));
      var pad := if |s| % 3 == 0 then [] else if |s| % 3 == 1 then [Pad, Pad] else [Pad];
      Some(digits + pad)
  }

  /** ASCII whitespace as the Infra standard defines it: tab, line feed,
      form feed, carriage return and space. */
  predicate IsAsciiWhitespace(u: Unit)
  {
    u == 9 || u == 10 || u == 12 || u == 13 || u == 32
  }

  function StripWhitespace(s: seq<Unit>): (r: seq<Unit>)
    ensures forall i :: 0 <= i < |r| ==> !IsAsciiWhitespace(r[i])
    ensures (forall i :: 0 <= i < |s| ==> !IsAsciiWhitespace(s[i])) ==> r == s
  {
    if s == [] then []
    else if IsAsciiWhitespace(s[0]) then StripWhitespace(s[1..])
    else [s[0]] + StripWhitespace(s[1..])
  }

  /** Every other unit is kept as often as it occurs, and no white space;
      `StripWhitespaceAppend` fixes the order. */
  lemma {:induction false} StripWhitespaceCounts(s: seq<Unit>, u: Unit)
    ensures multiset(StripWhitespace(s))[u] == if IsAsciiWhitespace(u) then 0 else multiset(s)[u]
  {
    if s != [] {
      assert s == [s[0]] + s[1..];
      StripWhitespaceCounts(s[1..], u);
    }
  }

  /** Stripping a concatenation strips each part and keeps them in order. */
  lemma {:induction false} StripWhitespaceAppend(a: seq<Unit>, b: seq<Unit>)
    ensures StripWhitespace(a + b) == StripWhitespace(a) + StripWhitespace(b)
  {
    if a == [] {
      assert a + b == b;
    } else {
      assert (a + b)[0] == a[0];
      assert (a + b)[1..] == a[1..] + b;
      StripWhitespaceAppend(a[1..], b);
    }
  }

  /** With a length divisible by 4, one or two trailing `=` are removed. */
  function DropPadding(d: seq<Unit>): (r: seq<Unit>)
    ensures r <= d && d == r + d[|r|..]
    ensures d[|r|..] == [] || d[|r|..] == [Pad] || d[|r|..] == [Pad, Pad]
    ensures |d| % 4 != 0 || |d| < 1 || d[|d| - 1] != Pad ==> r == d
  {
    if |d| % 4 != 0 then d
    else if |d| >= 2 && d[|d| - 1] == Pad && d[|d| - 2] == Pad then d[..|d| - 2]
    else if |d| >= 1 && d[|d| - 1] == Pad then d[..|d| - 1]
    else d
  }

  /** The digit values, or `None` when some unit is not a base64 digit. */
  function DigitValues(d: seq<Unit>): (r: Option<seq<int>>)
    ensures r.Some? <==> forall i :: 0 <= i < |d| ==> DigitValue(d[i]).Some?
    ensures r.Some? ==> |r.value| == |d| && AllSextets(r.value)
                        && forall i :: 0 <= i < |d| ==> r.value[i] == DigitValue(d[i]).value
  {
    if d == [] then Some([])
    else match (DigitValue(d[0]), DigitValues(d[1..]))
      case (Some(v), Some(rest)) => Some([v] + rest)
      case _ => None
  }

  /** `atob(s)`: `None` where it throws. Once white space and padding are
      dropped, it fails exactly on a length of 1 modulo 4 or a unit outside
      the base64 alphabet; otherwise every 4 digits give 3 bytes and a final
      2 or 3 digits give 1 or 2. */
  function Atob(s: seq<Unit>): (r: Option<seq<Unit>>)
    ensures r.Some? ==> AllBytes(r.value)
    ensures |StripWhitespace(s)| % 4 == 1 ==> r == None
    ensures var d := DropPadding(StripWhitespace(s));
            r.None? <==> |d| % 4 == 1 || exists i :: 0 <= i < |d| && DigitValue(d[i]).None?
    ensures var d := DropPadding(StripWhitespace(s));
            r.Some? ==> |r.value| == (|d| / 4) * 3 + (if |d| % 4 == 0 then 0 else |d| % 4 - 1)
  {
    var d := DropPadding(StripWhitespace(s));
    if |d| % 4 == 1 then None
    else match DigitValues(d)
      case None => None
      case Some(v) => Some(DecodeSextets(v))
  }

  /** The forgiving decode accepts an encoding without its `=` padding. */
  lemma AtobUnpadded(s: seq<Unit>)
    requires AllBytes(s)
    ensures Atob(Digits(EncodeSextets(s))) == Some(s)
  {
    var v := EncodeSextets(s);
    var d := Digits(v);
    BtoaShape(s);
    assert StripWhitespace(d) == d;
    assert DropPadding(d) == d by {
      if |d| % 4 == 0 && |d| >= 1 {
        assert d[|d| - 1] != Pad;
      }
    }
    DigitValuesOfDigits(v);
    DecodeEncodeSextets(s);
  }

  /** White space anywhere in the input is ignored. */
  lemma AtobIgnoresWhitespace(a: seq<Unit>, w: seq<Unit>, b: seq<Unit>)
    requires forall i :: 0 <= i < |w| ==> IsAsciiWhitespace(w[i])
    ensures Atob(a + w + b) == Atob(a + b)
  {
    StripWhitespaceSkips(a, w, b);
  }

  lemma StripWhitespaceSkips(a: seq<Unit>, w: seq<Unit>, b: seq<Unit>)
    requires forall i :: 0 <= i < |w| ==> IsAsciiWhitespace(w[i])
    ensures StripWhitespace(a + w + b) == StripWhitespace(a + b)
  {
    StripWhitespaceAppend(a + w, b);
    StripWhitespaceAppend(a, w);
    StripWhitespaceAppend(a, b);
    StripWhitespaceBlank(w);
    assert StripWhitespace(a) + [] == StripWhitespace(a);
  }

  lemma {:induction false} StripWhitespaceBlank(w: seq<Unit>)
    requires forall i :: 0 <= i < |w| ==> IsAsciiWhitespace(w[i])
    ensures StripWhitespace(w) == []
  {
    if w != [] {
      StripWhitespaceBlank(w[1..]);
    }
  }

  /** "QQ" and "QR" both decode to "A": the missing padding is accepted and
      the leftover bits of the last digit are dropped, even when nonzero. */
  lemma AtobForgiving()
    ensures Atob([81, 81]) == Some([65])
    ensures Atob([81, 82]) == Some([65])
  {
    AtobTwoDigits([81, 81], 16, 16);
    AtobTwoDigits([81, 82], 16, 17);
  }

  lemma AtobTwoDigits(d: seq<Unit>, x: int, y: int)
    requires |d| == 2 && DigitValue(d[0]) == Some(x) && DigitValue(d[1]) == Some(y)
    ensures Atob(d) == Some([x * 4 + y / 16])
  {
    DigitIsPlain(x);
    DigitIsPlain(y);
    var t := d[1..];
    assert t[0] == d[1] && t[1..] == [];
    assert StripWhitespace(t) == t;
    assert StripWhitespace(d) == [d[0]] + t == d;
    var dv := DigitValues(d);
    assert forall i :: 0 <= i < |d| ==> DigitValue(d[i]).Some?;
    assert dv.value[0] == x && dv.value[1] == y;
    assert dv.value == [x, y];
    assert DropPadding(d) == d;
    assert DecodeGroup([x, y] + [0, 0])[..1] == [x * 4 + y / 16];
    assert DecodeSextets([x, y]) == [x * 4 + y / 16];
  }

  lemma {:induction false} DigitValuesOfDigits(v: seq<int>)
    requires AllSextets(v)
    ensures DigitValues(Digits(v)) == Some(v)
  {
    var d := Digits(v);
    forall i | 0 <= i < |d|
      ensures DigitValue(d[i]) == Some(v[i])
    {
      assert d[i] == Base64Digit(v[i]);
    }
    var r := DigitValues(d);
    assert r.Some?;
    assert r.value == v;
  }

  lemma DigitIsPlain(v: int)
    requires 0 <= v < 64
    ensures Base64Digit(v) != Pad && !IsAsciiWhitespace(Base64Digit(v))
  {
  }

  lemma EncodedLength(n: nat)
    ensures ((n / 3) * 4 + (if n % 3 == 0 then 0 else n % 3 + 1)) % 4 != 1
  {
    var q := n / 3;
    assert (q * 4) % 4 == 0;
  }

  /** The encoding is the digits of the 6-bit groups, then `=` up to a
      multiple of four. */
  lemma BtoaShape(s: seq<Unit>)
    requires AllBytes(s)
    ensures var digits := Digits(EncodeSextets(s));
            && (forall i :: 0 <= i < |digits| ==> digits[i] != Pad && !IsAsciiWhitespace(digits[i]))
            && |digits| % 4 != 1
            && Btoa(s).value == digits + (if |s| % 3 == 0 then [] else if |s| % 3 == 1 then [Pad, Pad] else [Pad])
  {
    var v := EncodeSextets(s);
    var digits := Digits(v);
    forall i | 0 <= i < |digits|
      ensures digits[i] != Pad && !IsAsciiWhitespace(digits[i])
    {
      DigitIsPlain(v[i]);
    }
    EncodedLength(|s|);
  }

  lemma DropPaddingPadded(digits: seq<Unit>, pad: seq<Unit>)
    requires forall i :: 0 <= i < |digits| ==> digits[i] != Pad
    requires pad == [] || pad == [Pad] || pad == [Pad, Pad]
    requires (|digits| + |pad|) % 4 == 0
    ensures DropPadding(digits + pad) == digits
  {
    var e := digits + pad;
    if pad == [] {
      assert e == digits;
    } else if pad == [Pad] {
      assert e[|e| - 2] == digits[|digits| - 1];
      assert e[..|e| - 1] == digits;
    } else {
      assert e[..|e| - 2] == digits;
    }
  }

  lemma DropPaddingOfEncoding(s: seq<Unit>)
    requires AllBytes(s)
    ensures DropPadding(Btoa(s).value) == Digits(EncodeSextets(s))
  {
    BtoaShape(s);
    var digits := Digits(EncodeSextets(s));
    var pad: seq<Unit> := if |s| % 3 == 0 then [] else if |s| % 3 == 1 then [Pad, Pad] else [Pad];
    PaddedLength(|s|);
    DropPaddingPadded(digits, pad);
  }

  /** The digits and the padding of `n` bytes fill whole groups of four. */
  lemma PaddedLength(n: nat)
    ensures ((n / 3) * 4 + (if n % 3 == 0 then 0 else n % 3 + 1)
             + (if n % 3 == 0 then 0 else if n % 3 == 1 then 2 else 1)) % 4 == 0
  {
  }

  /** `atob` undoes `btoa`. */
  lemma AtobBtoa(s: seq<Unit>)
    requires AllBytes(s)
    ensures Atob(Btoa(s).value) == Some(s)
  {
    var v := EncodeSextets(s);
    var e := Btoa(s).value;
    BtoaShape(s);
    assert forall i :: 0 <= i < |e| ==> !IsAsciiWhitespace(e[i]);
    assert StripWhitespace(e) == e;
    DropPaddingOfEncoding(s);
    DigitValuesOfDigits(v);
    DecodeEncodeSextets(s);
  }

  // ---------------------------------------------------------------------------
  // The two entry points

  /** `encryptText(text)`: `None` where `btoa` throws, which is exactly when
      some unit of the text is above 255 (the key is ASCII, so XOR keeps such
      a unit above 255). */
  function Encrypt(text: seq<Unit>): (r: Option<seq<Unit>>)
    ensures text == [] ==> r == Some([])
    ensures r.None? <==> !AllBytes(text)
    ensures text != [] && r.Some? ==> Btoa(XorStage(text)) == r
  {
    XorStageBytes(text);
    if text == [] then Some([]) else Btoa(XorStage(text))
  }

  /** `decryptText(encrypted)`: the empty string when the input is empty or
      `atob` throws. */
  function Decrypt(encrypted: seq<Unit>): (r: seq<Unit>)
    ensures encrypted == [] || Atob(encrypted).None? ==> r == []
    ensures Atob(encrypted).Some? && encrypted != [] ==> r == XorStage(Atob(encrypted).value)
  {
    if encrypted == [] then []
    else match Atob(encrypted)
      case None => []
      case Some(bytes) => XorStage(bytes)
  }

  /** Decryption undoes encryption for every text of bytes. */
  lemma RoundTrip(text: seq<Unit>)
    requires AllBytes(text)
    ensures Encrypt(text).Some? && Decrypt(Encrypt(text).value) == text
  {
    if text != [] {
      var x := XorStage(text);
      XorStageBytes(text);
      AtobBtoa(x);
      XorStageInvolution(text);
    }
  }

  /** Whatever `decryptText` returns is made of bytes. */
  lemma DecryptGivesBytes(encrypted: seq<Unit>)
    ensures AllBytes(Decrypt(encrypted))
  {
    var a := Atob(encrypted);
    if encrypted != [] && a.Some? {
      XorStageBytes(a.value);
    }
  }

  /** Malformed base64 decrypts to the empty string: five digits leave a
      single dangling digit, and `!` is no base64 digit. */
  lemma MalformedDecryptsEmpty()
    ensures Decrypt([65, 66, 67, 68, 69]) == []
    ensures Decrypt([65, 66, 33, 68]) == []
  {
    assert StripWhitespace([65, 66, 67, 68, 69]) == [65, 66, 67, 68, 69];
    var bang: seq<Unit> := [65, 66, 33, 68];
    assert StripWhitespace(bang) == bang;
    assert DropPadding(bang) == bang;
    assert DigitValue(bang[2]).None?;
  }
}

=== FILE: proxy.dfy ===
/** The memoising wrappers of src/api/proxy.ts. The fetch function each
    wrapper receives is an oracle: a function parameter whose answer is a
    value or a rejection, which the wrapper passes on. The two module-level
    maps are explicit state threaded through every call. */
module Proxy {
  import opened Strings

  /** What awaiting the fetch function gives: a value, or a rejection. */
  datatype Fetched<T> = Ok(value: T) | Failed

  /** `movieCache` (shared by title and id lookups) and `searchCache`. */
  datatype Caches<M, S> = Caches(movies: map<string, M>, searches: map<string, S>)

  /** The outcome of one call: what it resolves to, the caches after it, and
      whether it called the fetch function (it calls it at most once). */
  datatype Outcome<T, M, S> = Outcome(result: Fetched<T>, caches: Caches<M, S>, fetched: bool)

  /** `title:` followed by the title, lower-cased letter by letter. */
  function TitleKey(title: string): (r: string)
    ensures |r| == 6 + |title| && r[..6] == "title:"
    ensures forall i :: 0 <= i < |title| ==> r[6 + i] == Lower(title[i])
  {
    "title:" + LowerStr(title)
  }

  /** `id:` followed by the id, case kept. */
  function IdKey(id: string): (r: string)
    ensures |r| == 3 + |id| && r[..3] == "id:" && r[3..] == id
  {
    "id:" + id
  }

  /** The page a search uses: the argument, or 1 when it is left out. */
  function PageOf(page: Option<int>): (r: int)
    ensures page.None? ==> r == 1
    ensures page.Some? ==> r == page.value
  {
    match page
    case None => 1
    case Some(p) => p
  }

  /** `search:`, the lower-cased term, `:` and the page in decimal. */
  function SearchKey(term: string, page: Option<int>): (r: string)
    ensures var n := 7 + |term|;
            && |r| > n + 1 && r[..7] == "search:" && r[7..n] == LowerStr(term) && r[n] == ':'
            && r[n + 1..] == IntToString(PageOf(page))
  {
    var a, p := "search:" + LowerStr(term), IntToString(PageOf(page));
    var r := a + ":" + p;
    assert r[..7] == a[..7] && r[7..7 + |term|] == a[7..];
    assert r[7 + |term| + 1..] == p;
    r
  }

  /** The shared shape of the three cached wrappers over one map: answer from
      the map on a hit, otherwise fetch once and store a successful answer. */
  function Memo<T>(cache: map<string, T>, key: string, answer: Fetched<T>)
    : (r: (Fetched<T>, map<string, T>, bool))
    ensures key in cache ==> r == (Ok(cache[key]), cache, false)
    ensures key !in cache ==> r.0 == answer && r.2
    ensures key !in cache && answer.Ok? ==>
              && key in r.1 && r.1[key] == answer.value
              && (forall k :: k != key ==> (k in r.1 <==> k in cache))
              && (forall k :: k != key && k in cache ==> r.1[k] == cache[k])
    ensures key !in cache && answer.Failed? ==> r.1 == cache
  {
    if key in cache then (Ok(cache[key]), cache, false)
    else match answer
      case Ok(v) => (answer, cache[key := v], true)
      case Failed => (answer, cache, true)
  }

  /** `proxyGetMovieByTitle(fetchFn, title)`; on a miss the fetch function
      receives the title as given, not lower-cased. */
  function ByTitle<M, S>(c: Caches<M, S>, fetch: string -> Fetched<M>, title: string): (r: Outcome<M, M, S>)
    ensures TitleKey(title) in c.movies ==> r == Outcome(Ok(c.movies[TitleKey(title)]), c, false)
    ensures TitleKey(title) !in c.movies ==> r.result == fetch(title) && r.fetched
    ensures r.caches.searches == c.searches
    ensures TitleKey(title) !in c.movies && fetch(title).Ok? ==>
              r.caches.movies == c.movies[TitleKey(title) := fetch(title).value]
    ensures TitleKey(title) !in c.movies && fetch(title).Failed? ==> r.caches == c
  {
    var (res, movies, fetched) := Memo(c.movies, TitleKey(title), fetch(title));
    Outcome(res, c.(movies := movies), fetched)
  }

  /** `proxyGetMovieById(fetchFn, imdbId)`; the id keeps its case. */
  function ById<M, S>(c: Caches<M, S>, fetch: string -> Fetched<M>, id: string): (r: Outcome<M, M, S>)
    ensures IdKey(id) in c.movies ==> r == Outcome(Ok(c.movies[IdKey(id)]), c, false)
    ensures IdKey(id) !in c.movies ==> r.result == fetch(id) && r.fetched
    ensures r.caches.searches == c.searches
    ensures IdKey(id) !in c.movies && fetch(id).Ok? ==>
              r.caches.movies == c.movies[IdKey(id) := fetch(id).value]
    ensures IdKey(id) !in c.movies && fetch(id).Failed? ==> r.caches == c
  {
    var (res, movies, fetched) := Memo(c.movies, IdKey(id), fetch(id));
    Outcome(res, c.(movies := movies), fetched)
  }

  /** `proxySearchMovies(fetchFn, searchTerm, page)`. */
  function Search<M, S>(c: Caches<M, S>, fetch: (string, int) -> Fetched<S>, term: string, page: Option<int>)
    : (r: Outcome<S, M, S>)
    ensures SearchKey(term, page) in c.searches ==>
              r == Outcome(Ok(c.searches[SearchKey(term, page)]), c, false)
    ensures SearchKey(term, page) !in c.searches ==> r.result == fetch(term, PageOf(page)) && r.fetched
    ensures r.caches.movies == c.movies
    ensures SearchKey(term, page) !in c.searches && fetch(term, PageOf(page)).Ok? ==>
              r.caches.searches == c.searches[SearchKey(term, page) := fetch(term, PageOf(page)).value]
    ensures SearchKey(term, page) !in c.searches && fetch(term, PageOf(page)).Failed? ==> r.caches == c
  {
    var key := SearchKey(term, page);
    var (res, searches, fetched) := Memo(c.searches, key, fetch(term, PageOf(page)));
    Outcome(res, c.(searches := searches), fetched)
  }

  /** `proxyGetRandomMovie(fetchFn)`: never cached. `answer` is what the
      fetch function gives this time. */
  function Random<M, S>(c: Caches<M, S>, answer: Fetched<M>): (r: Outcome<M, M, S>)
    ensures r.result == answer && r.fetched && r.caches == c
  {
    Outcome(answer, c, true)
  }

  /** A successful miss stores its answer, and a failed one stores nothing. */
  lemma MissStores<M, S>(c: Caches<M, S>, fetch: string -> Fetched<M>, title: string)
    requires TitleKey(title) !in c.movies
    ensures fetch(title).Ok? ==>
              ByTitle(c, fetch, title).caches.movies == c.movies[TitleKey(title) := fetch(title).value]
    ensures fetch(title).Failed? ==> ByTitle(c, fetch, title).caches == c
  {
    var r := ByTitle(c, fetch, title);
    if fetch(title).Ok? {
      assert r.caches.movies == c.movies[TitleKey(title) := fetch(title).value];
    }
  }

  /** Titles that differ only in case share one entry: after a successful
      lookup of one, the other is answered from the cache without fetching. */
  lemma CaseInsensitiveTitles<M, S>(c: Caches<M, S>, f: string -> Fetched<M>, g: string -> Fetched<M>,
                                    t1: string, t2: string)
    requires LowerStr(t1) == LowerStr(t2)
    requires ByTitle(c, f, t1).result.Ok?
    ensures var first := ByTitle(c, f, t1);
            var second := ByTitle(first.caches, g, t2);
            !second.fetched && second.result == first.result && second.caches == first.caches
  {
    assert TitleKey(t1) == TitleKey(t2);
  }

  /** Title keys and id keys never collide, whatever the title and id. */
  lemma TitleAndIdKeysDisjoint(title: string, id: string)
    ensures TitleKey(title) != IdKey(id)
  {
    assert TitleKey(title)[0] == 't' && IdKey(id)[0] == 'i';
  }

  /** Title keys identify titles up to case; id keys identify ids exactly. */
  lemma KeysIdentify(t1: string, t2: string, id1: string, id2: string)
    ensures TitleKey(t1) == TitleKey(t2) <==> LowerStr(t1) == LowerStr(t2)
    ensures IdKey(id1) == IdKey(id2) <==> id1 == id2
  {
    if TitleKey(t1) == TitleKey(t2) {
      assert LowerStr(t1) == TitleKey(t1)[6..] && LowerStr(t2) == TitleKey(t2)[6..];
    }
    if IdKey(id1) == IdKey(id2) {
      assert id1 == IdKey(id1)[3..] && id2 == IdKey(id2)[3..];
    }
  }

  /** Two searches share a key exactly when their terms agree up to case
      and they ask for the same page: the page's rendering holds no `:`, so
      the last `:` of a key separates the term from the page. */
  lemma SearchKeysIdentify(t1: string, t2: string, p1: Option<int>, p2: Option<int>)
    ensures SearchKey(t1, p1) == SearchKey(t2, p2) <==> LowerStr(t1) == LowerStr(t2) && PageOf(p1) == PageOf(p2)
  {
    var k1, k2 := SearchKey(t1, p1), SearchKey(t2, p2);
    if k1 == k2 {
      assert |t1| == |t2|;
      assert LowerStr(t1) == k1[7..7 + |t1|];
      IntToStringInjective(PageOf(p1), PageOf(p2));
    }
  }

  /** A lookup by id never disturbs a cached title entry. */
  lemma IdLookupKeepsTitles<M, S>(c: Caches<M, S>, fetch: string -> Fetched<M>, id: string, title: string)
    requires TitleKey(title) in c.movies
    ensures var r := ById(c, fetch, id);
            TitleKey(title) in r.caches.movies && r.caches.movies[TitleKey(title)] == c.movies[TitleKey(title)]
  {
    TitleAndIdKeysDisjoint(title, id);
  }

  /** Leaving out the page searches page 1. */
  lemma SearchDefaultsToFirstPage<M, S>(c: Caches<M, S>, fetch: (string, int) -> Fetched<S>, term: string)
    ensures Search(c, fetch, term, None) == Search(c, fetch, term, Some(1))
  {
  }

  /** A repeated random lookup fetches again. */
  lemma RandomNeverCached<M, S>(c: Caches<M, S>, a1: Fetched<M>, a2: Fetched<M>)
    ensures Random(Random(c, a1).caches, a2).fetched
    ensures Random(Random(c, a1).caches, a2).result == a2
  {
  }
}

=== FILE: revealmask.dfy ===
/** Cell selection of `applyRevealMask` and `simpleHash` in
    src/utils/canvasUtils.ts, without the drawing.

    The poster is cut into a 15 x 15 grid. Below 100% a prefix of an ordering
    of the 225 cells is revealed; the ordering is a stable sort of the cell
    indices by a string hash of the cell index and a seed built from the
    discovered letters, or a random shuffle when no letter is known. */
module RevealMask {
  import opened Strings

  const GridSize: nat := 15
  const TotalCells: nat := GridSize * GridSize

  // ---------------------------------------------------------------------------
  // 32-bit integer arithmetic

  const Modulus: int := 0x1_0000_0000
  const HalfModulus: int := 0x8000_0000

  predicate IsInt32(x: int)
  {
    -HalfModulus <= x < HalfModulus
  }

  /** ECMAScript ToInt32: wrap `x` into the signed 32-bit range. */
  function ToInt32(x: int): (r: int)
    ensures IsInt32(r)
    ensures r % Modulus == x % Modulus
  {
    var m := x % Modulus;
    if m >= HalfModulus then m - Modulus else m
  }

  lemma ToInt32Congruent(a: int, b: int)
    requires a % Modulus == b % Modulus
    ensures ToInt32(a) == ToInt32(b)
  {
  }

  lemma ModLinear(a: int, b: int, n: int, c: int)
    requires a % Modulus == b % Modulus
    ensures (a * n + c) % Modulus == (b * n + c) % Modulus
  {
    var qa, qb := a / Modulus, b / Modulus;
    var m := a % Modulus;
    assert a == qa * Modulus + m;
    assert b == qb * Modulus + m;
    assert a * n + c == (qa * n) * Modulus + (m * n + c);
    assert b * n + c == (qb * n) * Modulus + (m * n + c);
    ModShift(qa * n, m * n + c);
    ModShift(qb * n, m * n + c);
  }

  lemma ModShift(k: int, x: int)
    ensures (k * Modulus + x) % Modulus == x % Modulus
  {
  }

  // ---------------------------------------------------------------------------
  // simpleHash

  /** One step of the loop: `hash = ((hash << 5) - hash) + char`, then
      `hash = hash & hash`. The shift wraps to 32 bits, and so does `&`. */
  function HashStep(h: int, c: char): (r: int)
    ensures IsInt32(r)
  {
    ToInt32((ToInt32(h * 32) - h) + c as int)
  }

  function HashFrom(s: string, h: int): (r: int)
    requires IsInt32(h)
    ensures IsInt32(r)
  {
    if s == [] then h else HashFrom(s[1..], HashStep(h, s[0]))
  }

  function Abs(x: int): nat { if x < 0 then -x else x }

  /** `simpleHash(str)`: the absolute value of the wrapped hash. */
  function SimpleHash(s: string): (r: nat)
    ensures r <= HalfModulus
  {
    Abs(HashFrom(s, 0))
  }

  /** The same fold without any wrapping: `h * 31^|s|` plus the polynomial
      of the character codes in base 31. */
  function PolyHash(s: string, h: int): int
  {
    if s == [] then h else PolyHash(s[1..], 31 * h + s[0] as int)
  }

  lemma {:induction false} PolyHashCongruent(s: string, a: int, b: int)
    requires a % Modulus == b % Modulus
    ensures PolyHash(s, a) % Modulus == PolyHash(s, b) % Modulus
  {
    if s != [] {
      ModLinear(a, b, 31, s[0] as int);
      assert (31 * a + s[0] as int) % Modulus == (31 * b + s[0] as int) % Modulus;
      PolyHashCongruent(s[1..], 31 * a + s[0] as int, 31 * b + s[0] as int);
    }
  }

  /** The step is `h * 31 + c` taken modulo 2^32. */
  lemma HashStepIsTimes31(h: int, c: char)
    requires IsInt32(h)
    ensures HashStep(h, c) == ToInt32(31 * h + c as int)
  {
    var sh := ToInt32(h * 32);
    ModLinear(sh, h * 32, 1, - h + c as int);
    assert sh * 1 + (- h + c as int) == (sh - h) + c as int;
    assert (h * 32) * 1 + (- h + c as int) == 31 * h + c as int;
  }

  /** Wrapping after every step gives the wrapped value of the unbounded
      polynomial hash. */
  lemma {:induction false} HashFromIsWrappedPoly(s: string, h: int)
    requires IsInt32(h)
    ensures HashFrom(s, h) == ToInt32(PolyHash(s, h))
  {
    if s != [] {
      var c := s[0];
      HashStepIsTimes31(h, c);
      var w := HashStep(h, c);
      HashFromIsWrappedPoly(s[1..], w);
      PolyHashCongruent(s[1..], w, 31 * h + c as int);
      ToInt32Congruent(PolyHash(s[1..], w), PolyHash(s[1..], 31 * h + c as int));
    }
  }

  /** `simpleHash` is the absolute value of the signed 32-bit wrap of the
      base-31 polynomial of the character codes. */
  lemma SimpleHashIsPolynomial(s: string)
    ensures SimpleHash(s) == Abs(ToInt32(PolyHash(s, 0)))
  {
    HashFromIsWrappedPoly(s, 0);
  }

  // ---------------------------------------------------------------------------
  // Cell ordering

  /** `discoveredLetters.join('').toLowerCase()`, in discovery order. */
  function Seed(letters: seq<string>): (r: string)
    ensures |r| == |Concat(letters)|
    ensures forall i :: 0 <= i < |r| ==> !IsUpper(r[i]) && Upper(r[i]) == Upper(Concat(letters)[i])
  {
    LowerStr(Concat(letters))
  }

  /** The sort key of a cell: `simpleHash(`${index}-${letterSeed}`)`. */
  function CellKey(seed: string, cell: nat): (r: nat)
    ensures r <= HalfModulus
    ensures r == Abs(ToInt32(PolyHash(NatToString(cell) + "-" + seed, 0)))
  {
    SimpleHashIsPolynomial(NatToString(cell) + "-" + seed);
    SimpleHash(NatToString(cell) + "-" + seed)
  }

  /** The comparator's key function for one seed. */
  function KeyOf(seed: string): nat -> nat
  {
    cell => CellKey(seed, cell)
  }

  /** The order a stable sort by `key` leaves two cells in, when the cells
      come in increasing index order: by key, and by index among equal keys. */
  predicate Before(key: nat -> nat, a: nat, b: nat)
  {
    key(a) < key(b) || (key(a) == key(b) && a < b)
  }

  predicate SortedBy(key: nat -> nat, s: seq<nat>)
  {
    forall i, j :: 0 <= i < j < |s| ==> Before(key, s[i], s[j])
  }

  predicate Increasing(s: seq<nat>)
  {
    forall i, j :: 0 <= i < j < |s| ==> s[i] < s[j]
  }

  /** Inserts `x` after every element whose key does not exceed its own. */
  function Insert(key: nat -> nat, x: nat, s: seq<nat>): (r: seq<nat>)
    ensures multiset(r) == multiset(s) + multiset{x}
  {
    if s == [] then [x]
    else if key(s[0]) > key(x) then [x] + s
    else
      assert s == [s[0]] + s[1..];
      [s[0]] + Insert(key, x, s[1..])
  }

  /** Inserting a cell larger than every present index keeps the order. */
  lemma {:induction false} InsertSorted(key: nat -> nat, x: nat, s: seq<nat>)
    requires SortedBy(key, s)
    requires forall y :: y in s ==> y < x
    ensures SortedBy(key, Insert(key, x, s))
  {
    if s != [] && key(s[0]) <= key(x) {
      var tail := s[1..];
      assert forall y :: y in tail ==> y in s;
      InsertSorted(key, x, tail);
      var rest := Insert(key, x, tail);
      var r := Insert(key, x, s);
      assert r == [s[0]] + rest;
      assert s[0] < x by {
        assert s[0] in s;
      }
      forall j | 0 < j < |r|
        ensures Before(key, s[0], r[j])
      {
        assert r[j] == rest[j - 1];
        assert r[j] in multiset(tail) + multiset{x};
        if r[j] != x {
          assert r[j] in tail;
          var k :| 0 <= k < |tail| && tail[k] == r[j];
          assert s[k + 1] == r[j];
        }
      }
    }
  }

  /** `cellIndices.sort((a, b) => key(a) - key(b))` on indices given in
      increasing order; `Array.prototype.sort` is stable. */
  function Sort(key: nat -> nat, xs: seq<nat>): (r: seq<nat>)
    requires Increasing(xs)
    ensures multiset(r) == multiset(xs)
    ensures SortedBy(key, r)
  {
    if xs == [] then []
    else
      var init := xs[..|xs| - 1];
      var last := xs[|xs| - 1];
      assert xs == init + [last];
      var sorted := Sort(key, init);
      assert forall y :: y in sorted ==> y < last by {
        forall y | y in sorted ensures y < last {
          assert y in multiset(init);
        }
      }
      InsertSorted(key, last, sorted);
      Insert(key, last, sorted)
  }

  /** `Array.from({ length: totalCells }, (_, i) => i)`. */
  function Cells(): (r: seq<nat>)
    ensures |r| == TotalCells
    ensures forall i :: 0 <= i < TotalCells ==> r[i] == i
  {
    seq(TotalCells, i requires 0 <= i < TotalCells => i)
  }

  /** Every cell exactly once. */
  ghost predicate IsCellPermutation(s: seq<nat>)
  {
    |s| == TotalCells && NoDup(s) && forall c: nat :: c in s <==> c < TotalCells
  }

  lemma {:induction false} SortedIsNoDup(key: nat -> nat, s: seq<nat>)
    requires SortedBy(key, s)
    ensures NoDup(s)
  {
    forall i, j | 0 <= i < j < |s|
      ensures s[i] != s[j]
    {
      assert Before(key, s[i], s[j]);
    }
  }

  /** The elements of a sequence as a set. */
  function Elements(s: seq<nat>): (r: set<nat>)
    ensures forall c :: c in r <==> c in s
  {
    if s == [] then {} else {s[0]} + Elements(s[1..])
  }

  lemma {:induction false} NoDupTail(s: seq<nat>)
    requires NoDup(s) && s != []
    ensures NoDup(s[1..]) && s[0] !in s[1..]
  {
    var rest := s[1..];
    forall i, j | 0 <= i < j < |rest| ensures rest[i] != rest[j] {
      assert rest[i] == s[i + 1] && rest[j] == s[j + 1];
    }
    forall k | 0 <= k < |rest| ensures rest[k] != s[0] {
      assert rest[k] == s[k + 1];
    }
  }

  lemma {:induction false} NoDupSetSize(s: seq<nat>)
    requires NoDup(s)
    ensures |Elements(s)| == |s|
  {
    if s != [] {
      NoDupTail(s);
      NoDupSetSize(s[1..]);
      assert s[0] !in Elements(s[1..]);
    }
  }

  lemma {:induction false} NoDupLength(s: seq<nat>, t: seq<nat>)
    requires NoDup(s) && NoDup(t)
    requires forall c :: c in s <==> c in t
    ensures |s| == |t|
  {
    NoDupSetSize(s);
    NoDupSetSize(t);
    assert Elements(s) == Elements(t);
  }

  lemma CellsFacts()
    ensures Increasing(Cells()) && NoDup(Cells())
    ensures forall c: nat :: c in Cells() <==> c < TotalCells
  {
    var cells := Cells();
    forall c: nat | c < TotalCells ensures c in cells {
      assert cells[c] == c;
    }
  }

  lemma SameMultisetSameElements(s: seq<nat>, t: seq<nat>)
    requires multiset(s) == multiset(t)
    ensures forall c :: c in s <==> c in t
  {
    forall c ensures c in s <==> c in t {
      assert c in s <==> c in multiset(s);
      assert c in t <==> c in multiset(t);
    }
  }

  /** Sorting all cells by any key yields every cell exactly once. */
  lemma SortCellsIsPermutation(key: nat -> nat)
    ensures IsCellPermutation(Sort(key, Cells()))
  {
    CellsFacts();
    var cells := Cells();
    var r := Sort(key, cells);
    SameMultisetSameElements(r, cells);
    SortedIsNoDup(key, r);
    NoDupLength(r, cells);
  }

  /** The seeded ordering of all cells. */
  function Order(seed: string): (r: seq<nat>)
    ensures IsCellPermutation(r)
    ensures SortedBy(KeyOf(seed), r)
  {
    SortCellsIsPermutation(KeyOf(seed));
    Sort(KeyOf(seed), Cells())
  }

  /** Sorting is determined by its result's properties: a permutation of the
      cells in (key, index) order is the seeded ordering. */
  lemma {:induction false} OrderIsUnique(seed: string, s: seq<nat>)
    requires IsCellPermutation(s) && SortedBy(KeyOf(seed), s)
    ensures s == Order(seed)
  {
    var o := Order(seed);
    SameElementsSameMultiset(s, o);
    SortedUnique(KeyOf(seed), s, o);
  }

  lemma {:induction false} SameElementsSameMultiset(s: seq<nat>, t: seq<nat>)
    requires NoDup(s) && NoDup(t)
    requires forall c :: c in s <==> c in t
    ensures multiset(s) == multiset(t)
  {
    forall c
      ensures multiset(s)[c] == multiset(t)[c]
    {
      NoDupCount(s, c);
      NoDupCount(t, c);
    }
  }

  lemma {:induction false} NoDupCount(s: seq<nat>, c: nat)
    requires NoDup(s)
    ensures multiset(s)[c] == if c in s then 1 else 0
  {
    if s != [] {
      assert s == [s[0]] + s[1..];
      NoDupTail(s);
      NoDupCount(s[1..], c);
    }
  }

  lemma MultisetTail(a: seq<nat>)
    requires a != []
    ensures multiset(a[1..]) == multiset(a) - multiset{a[0]}
  {
    assert a == [a[0]] + a[1..];
  }

  /** Two sorted arrangements of the same cells start with the same cell. */
  lemma SortedSameHead(key: nat -> nat, a: seq<nat>, b: seq<nat>)
    requires SortedBy(key, a) && SortedBy(key, b)
    requires multiset(a) == multiset(b) && a != []
    ensures b != [] && a[0] == b[0]
  {
    assert a[0] in multiset(b);
    assert b[0] in multiset(a);
  }

  lemma {:induction false} SortedUnique(key: nat -> nat, a: seq<nat>, b: seq<nat>)
    requires SortedBy(key, a) && SortedBy(key, b)
    requires multiset(a) == multiset(b)
    ensures a == b
  {
    if a != [] {
      SortedSameHead(key, a, b);
      MultisetTail(a);
      MultisetTail(b);
      SortedUnique(key, a[1..], b[1..]);
      assert a == [a[0]] + a[1..] && b == [b[0]] + b[1..];
    }
  }

  // ---------------------------------------------------------------------------
  // The mask

  /** `Math.floor((revealPercentage / 100) * totalCells)` over integer
      percentages. */
  function CellsToReveal(p: int): (r: int)
    ensures 0 <= p < 100 ==> 0 <= r < TotalCells
    ensures r * 100 <= p * TotalCells < (r + 1) * 100
  {
    (p * TotalCells) / 100
  }

  /** What the canvas shows: the whole image, or the grid with the first
      `count` cells of `order` revealed. */
  datatype Mask = FullImage | Grid(order: seq<nat>, count: int)

  /** `applyRevealMask`. `shuffled` stands for the random Fisher-Yates
      shuffle, used only when no letter is known. */
  function ApplyRevealMask(p: int, letters: seq<string>, shuffled: seq<nat>): (m: Mask)
    requires IsCellPermutation(shuffled)
    ensures p >= 100 <==> m == FullImage
    ensures m.Grid? ==> IsCellPermutation(m.order) && m.count == CellsToReveal(p)
    ensures m.Grid? && |letters| > 0 ==> m.order == Order(Seed(letters))
    ensures m.Grid? && |letters| == 0 ==> m.order == shuffled
  {
    if p >= 100 then FullImage
    else if |letters| > 0 then Grid(Order(Seed(letters)), CellsToReveal(p))
    else Grid(shuffled, CellsToReveal(p))
  }

  predicate Visible(m: Mask, cell: nat)
  {
    match m
    case FullImage => true
    case Grid(order, count) => exists i :: 0 <= i < |order| && i < count && order[i] == cell
  }

  /** The set of revealed cells of a grid mask. */
  function Revealed(m: Mask): set<nat>
    requires m.Grid? && 0 <= m.count <= |m.order|
  {
    Elements(m.order[..m.count])
  }

  /** Below 100% exactly `cellsToReveal` cells are revealed; all others are
      covered. */
  lemma RevealedCount(p: int, letters: seq<string>, shuffled: seq<nat>)
    requires 0 <= p < 100 && IsCellPermutation(shuffled)
    ensures var m := ApplyRevealMask(p, letters, shuffled);
            && |Revealed(m)| == CellsToReveal(p)
            && (forall c: nat :: c in Revealed(m) <==> c < TotalCells && Visible(m, c))
  {
    var m := ApplyRevealMask(p, letters, shuffled);
    var pre := m.order[..m.count];
    assert NoDup(pre);
    NoDupSetSize(pre);
    forall c: nat
      ensures c in Revealed(m) <==> c < TotalCells && Visible(m, c)
    {
      if c in pre {
        var i :| 0 <= i < |pre| && pre[i] == c;
        assert m.order[i] == c;
        assert c in m.order;
      }
      if Visible(m, c) {
        var i :| 0 <= i < |m.order| && i < m.count && m.order[i] == c;
        assert pre[i] == c;
      }
    }
  }

  /** A larger percentage reveals a superset: the revealed cells are a longer
      prefix of the same ordering, or the whole image. */
  lemma RevealMonotone(p1: int, p2: int, letters: seq<string>, shuffled: seq<nat>, cell: nat)
    requires p1 <= p2 && IsCellPermutation(shuffled)
    requires Visible(ApplyRevealMask(p1, letters, shuffled), cell)
    ensures Visible(ApplyRevealMask(p2, letters, shuffled), cell)
  {
    var m1 := ApplyRevealMask(p1, letters, shuffled);
    var m2 := ApplyRevealMask(p2, letters, shuffled);
    if m2.Grid? {
      var i :| 0 <= i < |m1.order| && i < m1.count && m1.order[i] == cell;
      assert m1.count <= m2.count by {
        assert p1 * TotalCells <= p2 * TotalCells;
      }
    }
  }

  /** The seed follows the order the letters were discovered in, so the same
      set of letters found in another order gives another seed. */
  lemma SeedFollowsDiscoveryOrder(x: string, y: string)
    requires |x| == 1 && |y| == 1 && Lower(x[0]) != Lower(y[0])
    ensures Seed([x, y]) != Seed([y, x])
  {
    assert Concat([x, y]) == x + y by {
      ConcatAppend([x], [y]);
      assert [x] + [y] == [x, y];
    }
    assert Concat([y, x]) == y + x by {
      ConcatAppend([y], [x]);
      assert [y] + [x] == [y, x];
    }
    assert Seed([x, y])[0] == Lower(x[0]);
    assert Seed([y, x])[0] == Lower(y[0]);
  }

  /** The overlay colour of a covered cell: `simpleHash(`${index}-color`)`
      modulo the four colours. It does not depend on the seed. */
  function CoverColor(cell: nat): (r: nat)
    ensures r < 4
    ensures r == Abs(ToInt32(PolyHash(NatToString(cell) + "-color", 0))) % 4
  {
    SimpleHashIsPolynomial(NatToString(cell) + "-color");
    SimpleHash(NatToString(cell) + "-color") % 4
  }

  /** Row and column of a cell: `Math.floor(index / gridSize)` and
      `index % gridSize`; together they identify the cell. */
  function Position(cell: nat): (r: (nat, nat))
    requires cell < TotalCells
    ensures r.0 < GridSize && r.1 < GridSize
    ensures cell == r.0 * GridSize + r.1
  {
    (cell / GridSize, cell % GridSize)
  }
}

=== FILE: scoring.dfy ===
/** The letter scorer and letter accumulation of `handleGuess` in
    src/components/MovieGuesser.tsx.

    Both strings arrive already lower-cased and trimmed. The scorer runs two
    passes over the guess: the exact pass marks slots whose letter equals the
    title's letter at the same index and consumes that title letter; the
    displaced pass marks a remaining slot `Present` when its letter still
    occurs in the pool of unconsumed title letters, consuming the first such
    occurrence. Consumed pool entries are overwritten with the sentinel '*'. */
module Scoring {
  import opened Strings
  import opened Slots

  const Sentinel: char := '*'

  /** The working state of the scorer: the per-slot marks and the pool of
      title letters not yet claimed (`remainingTitleLetters`). */
  datatype Scan = Scan(states: seq<LetterState>, pool: string)

  predicate ExactAt(g: string, t: string, j: int)
  {
    0 <= j < |g| && j < |t| && g[j] == t[j]
  }

  function Min(a: nat, b: nat): nat { if a <= b then a else b }

  /** `arr.indexOf(x)`: the first index holding `x`, or -1. */
  function IndexOf(s: string, x: char): (r: int)
    ensures r == -1 <==> x !in s
    ensures r != -1 ==> 0 <= r < |s| && s[r] == x && x !in s[..r]
  {
    if s == [] then -1
    else if s[0] == x then 0
    else
      var k := IndexOf(s[1..], x);
      if k == -1 then -1 else k + 1
  }

  /** The letters of the guess at slots that were not marked `Absent`. */
  function Hits(g: string, s: seq<LetterState>): multiset<char>
    requires |s| == |g|
  {
    if g == [] then multiset{}
    else (if s[0] != Absent then multiset{g[0]} else multiset{}) + Hits(g[1..], s[1..])
  }

  lemma {:induction false} HitsMark(g: string, s: seq<LetterState>, i: nat, k: LetterState)
    requires |s| == |g| && i < |g|
    requires s[i] == Absent && k != Absent
    ensures Hits(g, s[i := k]) == Hits(g, s) + multiset{g[i]}
    decreases i
  {
    if i > 0 {
      assert s[i := k][1..] == s[1..][i - 1 := k];
      HitsMark(g[1..], s[1..], i - 1, k);
    } else {
      assert s[i := k][1..] == s[1..];
    }
  }

  lemma {:induction false} HitsWithinGuess(g: string, s: seq<LetterState>)
    requires |s| == |g|
    ensures Hits(g, s) <= multiset(g)
  {
    if g != [] {
      assert g == [g[0]] + g[1..];
      HitsWithinGuess(g[1..], s[1..]);
    }
  }

  lemma {:induction false} HitsAllOf(g: string, s: seq<LetterState>, c: char)
    requires |s| == |g|
    requires forall j :: 0 <= j < |g| && g[j] == c ==> s[j] != Absent
    ensures Hits(g, s)[c] == multiset(g)[c]
  {
    if g != [] {
      assert g == [g[0]] + g[1..];
      HitsAllOf(g[1..], s[1..], c);
    }
  }

  lemma {:induction false} HitsNone(g: string, s: seq<LetterState>)
    requires |s| == |g|
    requires forall j :: 0 <= j < |g| ==> s[j] == Absent
    ensures Hits(g, s) == multiset{}
  {
    if g != [] {
      HitsNone(g[1..], s[1..]);
    }
  }

  /** Every title letter other than the sentinel is either still in the pool
      or claimed by exactly one marked slot of the guess. */
  ghost predicate Conserved(g: string, t: string, acc: Scan)
    requires |acc.states| == |g|
  {
    forall c :: c != Sentinel ==> multiset(acc.pool)[c] + Hits(g, acc.states)[c] == multiset(t)[c]
  }

  /** Among the first `i` slots, a slot left `Absent` has a letter that the
      pool has run out of. */
  ghost predicate Saturated(g: string, i: nat, acc: Scan)
    requires i <= |g| == |acc.states|
  {
    forall j :: 0 <= j < i && g[j] != Sentinel && multiset(acc.pool)[g[j]] > 0 ==> acc.states[j] != Absent
  }

  /** Among the first `n` slots, when two hold the same letter and the later
      one is marked `Present`, the earlier one was not left `Absent`: the
      displaced pass hands out title letters from left to right. */
  predicate LeftmostFirst(g: string, states: seq<LetterState>, n: nat)
    requires n <= |g| == |states|
  {
    forall j, k :: 0 <= j < k < n && g[j] == g[k] && g[j] != Sentinel && states[k] == Present ==>
      states[j] != Absent
  }

  /** Claiming pool entry `p` for the unmarked slot `i` that holds the same
      letter keeps every non-sentinel count balanced, and no count grows. */
  lemma Consume(g: string, t: string, acc: Scan, i: nat, p: nat, k: LetterState)
    requires |acc.states| == |g| && i < |g| && p < |acc.pool|
    requires acc.states[i] == Absent && k != Absent && acc.pool[p] == g[i]
    requires Conserved(g, t, acc)
    ensures Conserved(g, t, Scan(acc.states[i := k], acc.pool[p := Sentinel]))
    ensures forall c :: c != Sentinel ==> multiset(acc.pool[p := Sentinel])[c] <= multiset(acc.pool)[c]
  {
    HitsMark(g, acc.states, i, k);
    assert multiset(acc.pool[p := Sentinel]) == multiset(acc.pool) - multiset{g[i]} + multiset{Sentinel};
  }

  /** The first `forEach` of the source (lines 82-91), from slot `i` on. */
  function ExactPass(g: string, t: string, i: nat, acc: Scan): (r: Scan)
    requires i <= |g| && |acc.states| == |g| && |acc.pool| == |t|
    requires forall j :: i <= j < |g| ==> acc.states[j] == Absent
    requires forall j :: i <= j < |t| ==> acc.pool[j] == t[j]
    requires forall j :: 0 <= j < i ==> (acc.states[j] == Correct <==> ExactAt(g, t, j))
    requires forall j :: 0 <= j < i ==> acc.states[j] in {Correct, Absent}
    requires Conserved(g, t, acc)
    ensures |r.states| == |g| && |r.pool| == |t|
    ensures forall j :: 0 <= j < |g| ==> (r.states[j] == Correct <==> ExactAt(g, t, j))
    ensures forall j :: 0 <= j < |g| ==> r.states[j] in {Correct, Absent}
    ensures Conserved(g, t, r)
    decreases |g| - i
  {
    if i == |g| then acc
    else if i < |t| && g[i] == t[i] then
      Consume(g, t, acc, i, i, Correct);
      ExactPass(g, t, i + 1, Scan(acc.states[i := Correct], acc.pool[i := Sentinel]))
    else
      ExactPass(g, t, i + 1, acc)
  }

  /** The second `forEach` of the source (lines 94-106), from slot `i` on. */
  function DisplacedPass(g: string, t: string, i: nat, acc: Scan): (r: Scan)
    requires i <= |g| && |acc.states| == |g| && |acc.pool| == |t|
    requires forall j :: i <= j < |g| ==> acc.states[j] in {Correct, Absent}
    requires forall j :: 0 <= j < |g| ==> acc.states[j] != Idle
    requires Conserved(g, t, acc)
    requires Saturated(g, i, acc)
    requires LeftmostFirst(g, acc.states, i)
    ensures |r.states| == |g| && |r.pool| == |t|
    ensures forall j :: 0 <= j < |g| ==> (r.states[j] == Correct <==> acc.states[j] == Correct)
    ensures forall j :: 0 <= j < |g| ==> (r.states[j] == Absent ==> acc.states[j] == Absent)
    ensures forall j :: 0 <= j < |g| ==> r.states[j] != Idle
    ensures forall j :: 0 <= j < i ==> r.states[j] == acc.states[j]
    ensures Conserved(g, t, r)
    ensures Saturated(g, |g|, r)
    ensures LeftmostFirst(g, r.states, |g|)
    decreases |g| - i
  {
    if i == |g| then acc
    else
      var next := DisplaceOne(g, t, i, acc);
      LeftmostStep(g, t, i, acc, next);
      DisplacedPass(g, t, i + 1, next)
  }

  /** One step of the displaced pass extends `LeftmostFirst` by one slot: a
      slot marked `Present` found its letter in the pool, and an earlier slot
      left `Absent` with that letter would mean the pool had run out of it. */
  lemma LeftmostStep(g: string, t: string, i: nat, acc: Scan, next: Scan)
    requires i < |g| && |acc.states| == |g| && |acc.pool| == |t|
    requires forall j :: i <= j < |g| ==> acc.states[j] in {Correct, Absent}
    requires forall j :: 0 <= j < |g| ==> acc.states[j] != Idle
    requires Conserved(g, t, acc)
    requires Saturated(g, i, acc)
    requires LeftmostFirst(g, acc.states, i)
    requires next == DisplaceOne(g, t, i, acc)
    ensures LeftmostFirst(g, next.states, i + 1)
  {
    forall j, k | 0 <= j < k < i + 1 && g[j] == g[k] && g[j] != Sentinel && next.states[k] == Present
      ensures next.states[j] != Absent
    {
      if k == i {
        assert multiset(acc.pool)[g[i]] > 0;
      }
    }
  }

  /** One iteration of the displaced pass, at slot `i`. */
  function DisplaceOne(g: string, t: string, i: nat, acc: Scan): (r: Scan)
    requires i < |g| && |acc.states| == |g| && |acc.pool| == |t|
    requires forall j :: i <= j < |g| ==> acc.states[j] in {Correct, Absent}
    requires forall j :: 0 <= j < |g| ==> acc.states[j] != Idle
    requires Conserved(g, t, acc)
    requires Saturated(g, i, acc)
    ensures |r.states| == |g| && |r.pool| == |t|
    ensures forall j :: 0 <= j < |g| && j != i ==> r.states[j] == acc.states[j]
    ensures acc.states[i] == Correct ==> r.states[i] == Correct
    ensures acc.states[i] != Correct ==> r.states[i] in {Present, Absent}
    ensures r.states[i] == Present <==> acc.states[i] != Correct && g[i] in acc.pool
    ensures Conserved(g, t, r)
    ensures Saturated(g, i + 1, r)
  {
    if acc.states[i] != Correct then
      var k := IndexOf(acc.pool, g[i]);
      if k != -1 then
        Consume(g, t, acc, i, k, Present);
        Scan(acc.states[i := Present], acc.pool[k := Sentinel])
      else
        assert multiset(acc.pool)[g[i]] == 0;
        acc
    else
      acc
  }

  /** The per-slot feedback for a lower-cased, trimmed guess against the
      lower-cased, trimmed title, with the pool left after both passes. */
  function Evaluate(g: string, t: string): (r: Scan)
    ensures |r.states| == |g| && |r.pool| == |t|
    ensures forall j :: 0 <= j < |g| ==> (r.states[j] == Correct <==> ExactAt(g, t, j))
    ensures forall j :: 0 <= j < |g| ==> r.states[j] != Idle
    ensures Conserved(g, t, r)
    ensures Saturated(g, |g|, r)
    ensures LeftmostFirst(g, r.states, |g|)
  {
    var start := Scan(seq(|g|, _ => Absent), t);
    HitsNone(g, start.states);
    var exact := ExactPass(g, t, 0, start);
    DisplacedPass(g, t, 0, exact)
  }

  /** The `letterStates` array the source computes. */
  function Score(g: string, t: string): (r: seq<LetterState>)
    ensures |r| == |g|
    ensures forall j :: 0 <= j < |g| ==> (r[j] == Correct <==> j < |t| && g[j] == t[j])
    ensures forall j :: 0 <= j < |g| ==> r[j] in {Correct, Present, Absent}
    ensures forall j, k :: 0 <= j < k < |g| && g[j] == g[k] && g[j] != Sentinel && r[j] != Correct && r[k] == Present ==>
              r[j] == Present
  {
    Evaluate(g, t).states
  }

  /** Duplicate safety, stated exactly: for every letter other than the
      sentinel, the number of slots holding it that are marked `Correct` or
      `Present` is the smaller of its count in the guess and in the title. */
  lemma ScoreCounts(g: string, t: string, c: char)
    requires c != Sentinel
    ensures Hits(g, Score(g, t))[c] == Min(multiset(g)[c], multiset(t)[c])
  {
    var r := Evaluate(g, t);
    HitsWithinGuess(g, r.states);
    if multiset(r.pool)[c] > 0 {
      HitsAllOf(g, r.states, c);
    }
  }

  /** Guessing "zbb" against "bzz": the single z is displaced and marked
      `Present`, and of the two b the title's one b goes to the leftmost. */
  lemma ScoreRepeatedLetters(g: string, t: string)
    requires g == "zbb" && t == "bzz"
    ensures Score(g, t) == [Present, Present, Absent]
  {
    var r := Score(g, t);
    ScoreZbbFirst(g, t);
    ScoreZbbRest(g, t);
    assert r == [r[0], r[1], r[2]];
  }

  lemma ScoreZbbFirst(g: string, t: string)
    requires g == "zbb" && t == "bzz"
    ensures Score(g, t)[0] == Present
  {
    var r := Score(g, t);
    ScoreCounts(g, t, 'z');
    assert multiset(g)['z'] == 1 && multiset(t)['z'] == 2;
    HitsZbb(g, r);
  }

  lemma ScoreZbbRest(g: string, t: string)
    requires g == "zbb" && t == "bzz"
    ensures Score(g, t)[1] == Present && Score(g, t)[2] == Absent
  {
    var r := Score(g, t);
    ScoreCounts(g, t, 'b');
    assert multiset(g)['b'] == 2 && multiset(t)['b'] == 1;
    HitsZbb(g, r);
    assert r[2] != Present;
  }

  /** The hits of "zbb", letter by letter. */
  lemma HitsZbb(g: string, r: seq<LetterState>)
    requires g == "zbb" && |r| == 3
    ensures Hits(g, r)['z'] == (if r[0] != Absent then 1 else 0)
    ensures Hits(g, r)['b'] == (if r[1] != Absent then 1 else 0) + (if r[2] != Absent then 1 else 0)
  {
    var r2 := r[2..];
    assert Hits(g[2..], r2) == (if r[2] != Absent then multiset{'b'} else multiset{}) + Hits(g[3..], r2[1..]);
    assert Hits(g[1..], r[1..]) == (if r[1] != Absent then multiset{'b'} else multiset{}) + Hits(g[2..], r2);
  }

  /** With no sentinel in the guess the bound holds for every character:
      a letter is never credited more often than the title holds it. */
  lemma ScoreNeverOvercounts(g: string, t: string, c: char)
    requires Sentinel !in g
    ensures Hits(g, Score(g, t))[c] <= multiset(t)[c]
  {
    if c == Sentinel {
      HitsWithinGuess(g, Score(g, t));
      assert multiset(g)[c] == 0;
    } else {
      ScoreCounts(g, t, c);
    }
  }

  /** A slot marked `Present` holds a letter of the title that is not at
      that slot's index. */
  lemma PresentMeansElsewhere(g: string, t: string, j: nat)
    requires Sentinel !in g && j < |g|
    requires Score(g, t)[j] == Present
    ensures g[j] in t
    ensures !(j < |t| && g[j] == t[j])
  {
    var s := Score(g, t);
    var c := g[j];
    assert c != Sentinel;
    HitsMark(g, s[j := Absent], j, Present);
    assert s[j := Absent][j := Present] == s;
    ScoreCounts(g, t, c);
  }

  // ---------------------------------------------------------------------------
  // Letter accumulation (`newCorrectLetters`)

  /** Letters of the guess at slots marked `k`, in slot order. */
  function Marked(g: string, s: seq<LetterState>, k: LetterState): (r: string)
    requires |s| == |g|
    ensures forall j :: 0 <= j < |g| && s[j] == k ==> g[j] in r
    ensures forall c :: c in r ==> exists j :: 0 <= j < |g| && s[j] == k && g[j] == c
  {
    if g == [] then []
    else
      var rest := Marked(g[1..], s[1..], k);
      assert forall j :: 1 <= j < |g| && s[j] == k ==> g[j] in rest by {
        forall j | 1 <= j < |g| && s[j] == k
          ensures g[j] in rest
        {
          assert s[1..][j - 1] == k && g[1..][j - 1] == g[j];
        }
      }
      if s[0] == k then [g[0]] + rest else rest
  }

  /** Pushes each letter of `letters`, in order, onto `found` unless
      `found` already includes it. */
  function Accumulate(found: string, letters: string): (r: string)
    ensures |found| <= |r| && r[..|found|] == found
    ensures forall c :: c in r <==> c in found || c in letters
    ensures forall j :: |found| <= j < |r| ==> r[j] !in found
    ensures NoDup(found) ==> NoDup(r)
    decreases |letters|
  {
    if letters == [] then found
    else if letters[0] in found then Accumulate(found, letters[1..])
    else
      var next := found + [letters[0]];
      var r := Accumulate(next, letters[1..]);
      assert r[..|next|] == next;
      assert r[..|found|] == next[..|found|];
      r
  }

  /** The letter list after one evaluation: the exact pass pushes its letters
      first, then the displaced pass pushes its own, each in slot order. */
  function Discover(found: string, g: string, s: seq<LetterState>): (r: string)
    requires |s| == |g|
    ensures |found| <= |r| && r[..|found|] == found
    ensures forall c :: c in r <==> c in found || exists j :: 0 <= j < |g| && s[j] in {Correct, Present} && g[j] == c
    ensures forall j :: |found| <= j < |r| ==> r[j] !in found
    ensures NoDup(found) ==> NoDup(r)
  {
    var r := Accumulate(found, Marked(g, s, Correct) + Marked(g, s, Present));
    assert forall c :: (c in Marked(g, s, Correct) + Marked(g, s, Present))
                         <==> (c in Marked(g, s, Correct) || c in Marked(g, s, Present));
    r
  }

  /** Accumulating letters that are all known already changes nothing. */
  lemma {:induction false} AccumulateKnown(found: string, letters: string)
    requires forall c :: c in letters ==> c in found
    ensures Accumulate(found, letters) == found
    decreases |letters|
  {
    if letters != [] {
      AccumulateKnown(found, letters[1..]);
    }
  }

  /** Re-applying the same evaluation adds no letter. */
  lemma DiscoverIdempotent(found: string, g: string, s: seq<LetterState>)
    requires |s| == |g|
    ensures Discover(Discover(found, g, s), g, s) == Discover(found, g, s)
  {
    var once := Discover(found, g, s);
    var letters := Marked(g, s, Correct) + Marked(g, s, Present);
    assert forall c :: (c in letters) <==> (c in Marked(g, s, Correct) || c in Marked(g, s, Present));
    AccumulateKnown(once, letters);
  }
}

=== FILE: slots.dfy ===
/** The letter-slot input of src/components/LetterInput.tsx, without focus
    handling or rendering.

    The component's state is three parallel arrays, one entry per slot:
    the slot's text, its colour state and whether it is locked ("prefilled").
    The `length` prop is the common length of the arrays. */
module Slots {
  import opened Strings

  /** The visual state of one input slot (`LetterState`). */
  datatype LetterState = Idle | Correct | Present | Absent

  datatype Slots = Slots(letters: seq<string>, states: seq<LetterState>, prefilled: seq<bool>)
  {
    predicate WellFormed()
    {
      |letters| == |states| == |prefilled|
    }

    function Length(): nat
    {
      |letters|
    }
  }

  /** The result of an edit: the new state and the guess handed to
      `onComplete`, if the edit filled the last empty slot. */
  datatype Update = Update(slots: Slots, submitted: Option<string>)

  /** `Array(length).fill('')`, `fill('idle')`, `fill(false)`: the initial
      state, and the state `clear` and the disable effect install. */
  function Clear(n: nat): (r: Slots)
    ensures r.WellFormed() && r.Length() == n
    ensures forall i :: 0 <= i < n ==> r.letters[i] == "" && r.states[i] == Idle && !r.prefilled[i]
  {
    Slots(seq(n, _ => ""), seq(n, _ => Idle), seq(n, _ => false))
  }

  /** The effect that resets the slots whenever the component is disabled. */
  function OnDisabledChange(s: Slots, disabled: bool, n: nat): (r: Slots)
    ensures disabled ==> r == Clear(n)
    ensures !disabled ==> r == s
  {
    if disabled then Clear(n) else s
  }

  predicate AllFilled(letters: seq<string>)
  {
    forall i :: 0 <= i < |letters| ==> letters[i] != ""
  }

  /** The completion check shared by change and paste: `onComplete` receives
      the joined slots exactly when no slot is empty. */
  function Submit(s: Slots): (r: Update)
    ensures r.slots == s
    ensures r.submitted.Some? <==> AllFilled(s.letters)
    ensures r.submitted.Some? ==> r.submitted.value == Concat(s.letters)
  {
    Update(s, if AllFilled(s.letters) then Some(Concat(s.letters)) else None)
  }

  // ---------------------------------------------------------------------------
  // Typing into one slot

  predicate OnlyLetters(value: string)
  {
    forall i :: 0 <= i < |value| ==> IsLetter(value[i])
  }

  /** `handleChange(index, value)`. */
  function Change(s: Slots, disabled: bool, index: nat, value: string): (r: Update)
    requires s.WellFormed() && index < s.Length()
    ensures disabled || s.prefilled[index] || !OnlyLetters(value) ==> r == Update(s, None)
    ensures !disabled && !s.prefilled[index] && OnlyLetters(value) ==>
              && r.slots.WellFormed()
              && r.slots.states == s.states && r.slots.prefilled == s.prefilled
              && |r.slots.letters| == s.Length()
              && r.slots.letters[index] == UpperStr(value)
              && (forall i :: 0 <= i < s.Length() && i != index ==> r.slots.letters[i] == s.letters[i])
              && (r.submitted.Some? <==> AllFilled(r.slots.letters))
              && (r.submitted.Some? ==> r.submitted.value == Concat(r.slots.letters))
  {
    if disabled || s.prefilled[index] || !OnlyLetters(value) then Update(s, None)
    else Submit(s.(letters := s.letters[index := UpperStr(value)]))
  }

  // ---------------------------------------------------------------------------
  // Navigation

  /** `findNextEmptyIndex(start)`: the first unlocked slot at or after
      `start`, or -1. */
  method FindNext(prefilled: seq<bool>, start: nat) returns (r: int)
    ensures r == -1 <==> forall j :: start <= j < |prefilled| ==> prefilled[j]
    ensures r != -1 ==> start <= r < |prefilled| && !prefilled[r]
    ensures r != -1 ==> forall j :: start <= j < r ==> prefilled[j]
  {
    var i := start;
    while i < |prefilled|
      invariant start <= i || |prefilled| <= start
      invariant forall j :: start <= j < i && j < |prefilled| ==> prefilled[j]
    {
      if !prefilled[i] {
        return i;
      }
      i := i + 1;
    }
    return -1;
  }

  /** `findPrevEmptyIndex(start)`: the last unlocked slot at or before
      `start`, or -1. A start past the last slot reads an absent entry,
      which counts as unlocked, and is returned as it is. */
  method FindPrev(prefilled: seq<bool>, start: int) returns (r: int)
    ensures start >= |prefilled| ==> r == start
    ensures start < |prefilled| ==> (r == -1 <==> forall j :: 0 <= j <= start ==> prefilled[j])
    ensures start < |prefilled| && r != -1 ==> 0 <= r <= start && !prefilled[r]
    ensures start < |prefilled| && r != -1 ==> forall j :: r < j <= start ==> prefilled[j]
  {
    var i := start;
    while i >= 0
      invariant i <= start
      invariant start >= |prefilled| ==> i == start
      invariant forall j :: 0 <= j && i < j <= start ==> j < |prefilled| && prefilled[j]
    {
      if i >= |prefilled| || !prefilled[i] {
        return i;
      }
      i := i - 1;
    }
    return -1;
  }

  // ---------------------------------------------------------------------------
  // Pasting

  /** The number of unlocked slots before slot `i`: the paste position that
      slot `i` draws from when it is unlocked. */
  function Rank(prefilled: seq<bool>, i: nat): nat
    requires i <= |prefilled|
  {
    if i == 0 then 0 else Rank(prefilled, i - 1) + (if prefilled[i - 1] then 0 else 1)
  }

  /** The pasted text with every non-letter removed, upper-cased: the
      letters of the text, in order, each in upper case. It is empty exactly
      when the text holds no letter. */
  function PasteText(text: string): (r: string)
    ensures |r| == |Letters(text)| <= |text|
    ensures forall i :: 0 <= i < |r| ==> IsUpper(r[i]) && Lower(r[i]) == Lower(Letters(text)[i])
    ensures r == [] <==> forall i :: 0 <= i < |text| ==> !IsLetter(text[i])
  {
    var letters := Letters(text);
    assert letters != [] ==> letters[0] in letters;
    assert letters == [] ==> forall i :: 0 <= i < |text| ==> text[i] !in letters;
    UpperStr(letters)
  }

  /** What slot `j` holds after pasting `pasted`: an unlocked slot takes the
      pasted letter at its rank, while there is one. */
  function PastedSlot(s: Slots, pasted: string, j: nat): string
    requires s.WellFormed() && j < s.Length()
  {
    if !s.prefilled[j] && Rank(s.prefilled, j) < |pasted| then [pasted[Rank(s.prefilled, j)]]
    else s.letters[j]
  }

  /** `handlePaste`: unlocked slots take the pasted letters left to right;
      locked slots and slots past the end of the text keep their contents. */
  method Paste(s: Slots, disabled: bool, text: string) returns (r: Update)
    requires s.WellFormed()
    ensures disabled || PasteText(text) == [] ==> r == Update(s, None)
    ensures !disabled && PasteText(text) != [] ==>
              && r.slots.WellFormed()
              && r.slots.states == s.states && r.slots.prefilled == s.prefilled
              && |r.slots.letters| == s.Length()
              && (forall i :: 0 <= i < s.Length() ==> r.slots.letters[i] == PastedSlot(s, PasteText(text), i))
              && (r.submitted.Some? <==> AllFilled(r.slots.letters))
              && (r.submitted.Some? ==> r.submitted.value == Concat(r.slots.letters))
  {
    if disabled {
      return Update(s, None);
    }
    var pasted := PasteText(text);
    if pasted == [] {
      return Update(s, None);
    }
    var letters := s.letters;
    var k := 0;
    var i := 0;
    while i < s.Length()
      invariant 0 <= i <= s.Length() && |letters| == s.Length()
      invariant k == if Rank(s.prefilled, i) < |pasted| then Rank(s.prefilled, i) else |pasted|
      invariant forall j :: 0 <= j < i ==> letters[j] == PastedSlot(s, pasted, j)
      invariant forall j :: i <= j < s.Length() ==> letters[j] == s.letters[j]
    {
      if !s.prefilled[i] && k < |pasted| {
        letters := letters[i := [pasted[k]]];
        k := k + 1;
      }
      i := i + 1;
    }
    r := Submit(s.(letters := letters));
  }

  // ---------------------------------------------------------------------------
  // Prefilling discovered letters

  /** Keeps only the characters `A`-`Z`. */
  function KeepUpper(s: string): (r: string)
    ensures forall i :: 0 <= i < |r| ==> IsUpper(r[i])
    ensures |r| <= |s|
  {
    if s == [] then []
    else if IsUpper(s[0]) then [s[0]] + KeepUpper(s[1..])
    else KeepUpper(s[1..])
  }

  /** Every upper-case letter is kept as often as it occurs, and nothing
      else is kept; `KeepUpperAppend` fixes the order. */
  lemma {:induction false} KeepUpperCounts(s: string, c: char)
    ensures multiset(KeepUpper(s))[c] == if IsUpper(c) then multiset(s)[c] else 0
  {
    if s != [] {
      assert s == [s[0]] + s[1..];
      KeepUpperCounts(s[1..], c);
    }
  }

  /** `title.toUpperCase().replace(/[^A-Z]/g, '')`. */
  function NormalizeTitle(title: string): (r: string)
    ensures forall i :: 0 <= i < |r| ==> IsUpper(r[i])
  {
    KeepUpper(UpperStr(title))
  }

  /** The indices of `s` from `from` on that hold `c` (the `positions`
      array when `from` is 0). */
  function Positions(s: string, c: char, from: nat): (r: seq<nat>)
    ensures forall j: nat :: j in r <==> from <= j < |s| && s[j] == c
    decreases |s| - from
  {
    if from >= |s| then []
    else (if s[from] == c then [from] else []) + Positions(s, c, from + 1)
  }

  /** Whether prefill locks slot `i`: the slot lies within both the
      normalised title and the slot row, and the lower-cased title letter
      there is one of the discovered letters. */
  predicate Locks(norm: string, correct: seq<string>, n: nat, i: nat)
  {
    i < |norm| && i < n && [Lower(norm[i])] in correct
  }

  /** The second loop of `prefillCorrectLetters`, from slot `i` on. */
  function LockPass(norm: string, correct: seq<string>, i: nat, letters: seq<string>, prefilled: seq<bool>)
    : (r: (seq<string>, seq<bool>))
    requires |letters| == |prefilled| && i <= |letters|
    ensures |r.0| == |r.1| == |letters|
    ensures forall j :: 0 <= j < |letters| ==>
              r.1[j] == (prefilled[j] || (i <= j && Locks(norm, correct, |letters|, j)))
    ensures forall j :: 0 <= j < |letters| ==>
              r.0[j] == if i <= j && Locks(norm, correct, |letters|, j) then [norm[j]] else letters[j]
    decreases |letters| - i
  {
    if i >= |norm| || i >= |letters| then (letters, prefilled)
    else
      var letter := norm[i];
      if [Lower(letter)] in correct && i in Positions(LowerStr(norm), Lower(letter), 0) then
        LockPass(norm, correct, i + 1, letters[i := [letter]], prefilled[i := true])
      else
        LockPass(norm, correct, i + 1, letters, prefilled)
  }

  /** `prefillCorrectLetters(movieTitle, correctLetters)`. */
  function Prefill(s: Slots, title: string, correct: seq<string>): (r: Slots)
    requires s.WellFormed()
    ensures title == "" || |correct| == 0 ==> r == s
    ensures r.WellFormed() && r.Length() == s.Length() && r.states == s.states
    ensures title != "" && |correct| > 0 ==>
              forall i :: 0 <= i < s.Length() ==>
                && r.prefilled[i] == (s.prefilled[i] || Locks(NormalizeTitle(title), correct, s.Length(), i))
                && r.letters[i] == if Locks(NormalizeTitle(title), correct, s.Length(), i)
                                   then [NormalizeTitle(title)[i]]
                                   else if s.prefilled[i] then s.letters[i] else ""
  {
    if title == "" || |correct| == 0 then s
    else
      var norm := NormalizeTitle(title);
      var cleared := seq(s.Length(), i requires 0 <= i < s.Length() => if s.prefilled[i] then s.letters[i] else "");
      var (letters, prefilled) := LockPass(norm, correct, 0, cleared, s.prefilled);
      s.(letters := letters, prefilled := prefilled)
  }

  /** Prefill is recomputed from the title and the letters alone: running it
      a second time with the same arguments changes nothing. */
  lemma PrefillIdempotent(s: Slots, title: string, correct: seq<string>)
    requires s.WellFormed()
    ensures Prefill(Prefill(s, title, correct), title, correct) == Prefill(s, title, correct)
  {
    var once := Prefill(s, title, correct);
    var twice := Prefill(once, title, correct);
    if title != "" && |correct| > 0 {
      assert twice.letters == once.letters;
      assert twice.prefilled == once.prefilled;
    }
  }

  /** A locked slot stays locked through prefill and keeps its letter
      unless the title puts its own letter there. */
  lemma PrefillKeepsLocks(s: Slots, title: string, correct: seq<string>, i: nat)
    requires s.WellFormed() && i < s.Length() && s.prefilled[i]
    ensures Prefill(s, title, correct).prefilled[i]
    ensures Prefill(s, title, correct).letters[i] == s.letters[i]
            || (Locks(NormalizeTitle(title), correct, s.Length(), i)
                && Prefill(s, title, correct).letters[i] == [NormalizeTitle(title)[i]])
  {
  }

  lemma UpperStrOfUpper(s: string)
    requires forall i :: 0 <= i < |s| ==> !IsLower(s[i])
    ensures UpperStr(s) == s
  {
  }

  lemma {:induction false} KeepUpperOfUpper(s: string)
    requires forall i :: 0 <= i < |s| ==> IsUpper(s[i])
    ensures KeepUpper(s) == s
  {
    if s != [] {
      KeepUpperOfUpper(s[1..]);
      assert s == [s[0]] + s[1..];
    }
  }

  lemma {:induction false} KeepUpperAppend(a: string, b: string)
    ensures KeepUpper(a + b) == KeepUpper(a) + KeepUpper(b)
  {
    if a != [] {
      assert (a + b)[1..] == a[1..] + b;
      KeepUpperAppend(a[1..], b);
    } else {
      assert a + b == b;
    }
  }

  /** Prefilling "TESTMOVIE" with the letters t and e on nine unlocked slots
      locks the leading T and E and leaves the S slot open. */
  lemma PrefillTestMovie(s: Slots, title: string, correct: seq<string>)
    requires s.WellFormed() && s.Length() == 9 && forall i :: 0 <= i < 9 ==> !s.prefilled[i]
    requires title == "TESTMOVIE" && correct == ["t", "e"]
    ensures var r := Prefill(s, title, correct);
            && r.letters[0] == "T" && r.prefilled[0]
            && r.letters[1] == "E" && r.prefilled[1]
            && r.letters[2] == "" && !r.prefilled[2]
  {
    UpperStrOfUpper(title);
    KeepUpperOfUpper(title);
    var norm := NormalizeTitle(title);
    assert norm == title;
    assert Locks(norm, correct, 9, 0) && Locks(norm, correct, 9, 1);
    assert !Locks(norm, correct, 9, 2);
  }

  lemma SpacedTitleNormalized(title: string)
    requires title == "THE LORD OF"
    ensures NormalizeTitle(title) == "THELORDOF"
  {
    UpperStrOfUpper(title);
    var the, lord, of := title[..3], title[4..8], title[9..];
    assert title == the + [' '] + lord + [' '] + of;
    KeepUpperOfUpper(the);
    KeepUpperOfUpper(lord);
    KeepUpperOfUpper(of);
    assert KeepUpper([' ']) == [];
    KeepUpperAppend(the + [' '] + lord + [' '], of);
    KeepUpperAppend(the + [' '] + lord, [' ']);
    KeepUpperAppend(the + [' '], lord);
    KeepUpperAppend(the, [' ']);
    assert the + lord + of == "THELORDOF";
  }

  /** "THE LORD OF" normalises to THELORDOF: with t, h and e known, on a
      row of twelve unlocked slots the first three slots lock and the four
      slots of LORD are left empty. */
  lemma PrefillSpacedTitle(s: Slots, title: string, correct: seq<string>)
    requires s.WellFormed() && s.Length() == 12 && forall i :: 0 <= i < 12 ==> !s.prefilled[i]
    requires title == "THE LORD OF" && correct == ["t", "h", "e"]
    ensures var r := Prefill(s, title, correct);
            && r.letters[0] == "T" && r.letters[1] == "H" && r.letters[2] == "E"
            && r.prefilled[0] && r.prefilled[1] && r.prefilled[2]
            && (forall i :: 3 <= i < 7 ==> r.letters[i] == "" && !r.prefilled[i])
  {
    SpacedTitleNormalized(title);
    var norm := NormalizeTitle(title);
    assert Locks(norm, correct, 12, 0) && Locks(norm, correct, 12, 1) && Locks(norm, correct, 12, 2);
    forall i | 3 <= i < 7
      ensures !Locks(norm, correct, 12, i)
    {
      assert norm[i] in "LORD";
    }
  }
}

=== FILE: strings.dfy ===
/** Character and string helpers shared by the game's components.

    Strings are sequences of `char`. Case mapping is the ASCII part of
    JavaScript's `toLowerCase`/`toUpperCase`; `Trim` strips the characters
    ECMAScript classes as WhiteSpace or LineTerminator. */
module Strings {

  datatype Option<+T> = None | Some(value: T)

  predicate IsUpper(c: char) { 'A' <= c <= 'Z' }

  predicate IsLower(c: char) { 'a' <= c <= 'z' }

  /** The class `[a-zA-Z]` of the source's regular expressions. */
  predicate IsLetter(c: char) { IsUpper(c) || IsLower(c) }

  function Lower(c: char): (r: char)
    ensures IsUpper(c) ==> IsLower(r) && r as int == c as int + 32
    ensures !IsUpper(c) ==> r == c
  {
    if IsUpper(c) then (c as int + 32) as char else c
  }

  function Upper(c: char): (r: char)
    ensures IsLower(c) ==> IsUpper(r) && r as int + 32 == c as int
    ensures !IsLower(c) ==> r == c
  {
    if IsLower(c) then (c as int - 32) as char else c
  }

  function LowerStr(s: string): (r: string)
    ensures |r| == |s|
    ensures forall i :: 0 <= i < |s| ==> r[i] == Lower(s[i])
  {
    seq(|s|, i requires 0 <= i < |s| => Lower(s[i]))
  }

  function UpperStr(s: string): (r: string)
    ensures |r| == |s|
    ensures forall i :: 0 <= i < |s| ==> r[i] == Upper(s[i])
  {
    seq(|s|, i requires 0 <= i < |s| => Upper(s[i]))
  }

  /** ECMAScript WhiteSpace and LineTerminator code points outside the
      range U+2000 to U+200A. */
  const SpaceChars: set<char> := {
    '\t', '\n', '\U{000B}', '\U{000C}', '\r', ' ', '\U{00A0}', '\U{1680}',
    '\U{2028}', '\U{2029}', '\U{202F}', '\U{205F}', '\U{3000}', '\U{FEFF}'}

  /** ECMAScript WhiteSpace and LineTerminator, the characters `trim` removes. */
  predicate IsSpace(c: char)
  {
    c in SpaceChars || ('\U{2000}' <= c <= '\U{200A}')
  }

  /** The index of the first non-space character of `s` at or after `i`, or
      `|s|` when there is none. */
  function SkipSpaces(s: string, i: nat): (k: nat)
    requires i <= |s|
    ensures i <= k <= |s|
    ensures forall j :: i <= j < k ==> IsSpace(s[j])
    ensures k == |s| || !IsSpace(s[k])
    decreases |s| - i
  {
    if i < |s| && IsSpace(s[i]) then SkipSpaces(s, i + 1) else i
  }

  /** The end of `s[lo..hi]` once its trailing spaces are dropped. */
  function DropSpaces(s: string, lo: nat, hi: nat): (e: nat)
    requires lo <= hi <= |s|
    ensures lo <= e <= hi
    ensures forall j :: e <= j < hi ==> IsSpace(s[j])
    ensures e == lo || !IsSpace(s[e - 1])
    decreases hi
  {
    if lo < hi && IsSpace(s[hi - 1]) then DropSpaces(s, lo, hi - 1) else hi
  }

  /** `String.prototype.trim`: `s` is some spaces, then the result, then some
      spaces, and the result neither starts nor ends with a space. */
  function Trim(s: string): (r: string)
    ensures var a := SkipSpaces(s, 0);
            && a + |r| <= |s| && r == s[a..a + |r|]
            && (forall i :: 0 <= i < a ==> IsSpace(s[i]))
            && (forall i :: a + |r| <= i < |s| ==> IsSpace(s[i]))
    ensures r == [] || (!IsSpace(r[0]) && !IsSpace(r[|r| - 1]))
  {
    var a := SkipSpaces(s, 0);
    s[a..DropSpaces(s, a, |s|)]
  }

  /** Trimming leaves nothing exactly when the string is all spaces. */
  lemma TrimBlank(s: string)
    ensures Trim(s) == [] <==> forall i :: 0 <= i < |s| ==> IsSpace(s[i])
  {
    var a := SkipSpaces(s, 0);
    if Trim(s) != [] {
      assert Trim(s)[0] == s[a];
    }
  }

  lemma {:induction false} SkipSpacesFrame(p: string, x: string, i: nat)
    requires i <= |p| && forall j :: 0 <= j < |p| ==> IsSpace(p[j])
    requires |x| > 0 && !IsSpace(x[0])
    ensures SkipSpaces(p + x, i) == |p|
    decreases |p| - i
  {
    if i < |p| {
      assert (p + x)[i] == p[i];
      SkipSpacesFrame(p, x, i + 1);
    } else {
      assert (p + x)[|p|] == x[0];
    }
  }

  lemma {:induction false} DropSpacesFrame(s: string, lo: nat, e: nat, hi: nat)
    requires lo < e <= hi <= |s| && !IsSpace(s[e - 1])
    requires forall j :: e <= j < hi ==> IsSpace(s[j])
    ensures DropSpaces(s, lo, hi) == e
    decreases hi
  {
    if hi > e {
      DropSpacesFrame(s, lo, e, hi - 1);
    }
  }

  /** Trimming a string made of spaces, a core with non-space ends, and
      spaces gives back exactly the core. */
  lemma TrimFrame(p: string, m: string, q: string)
    requires forall i :: 0 <= i < |p| ==> IsSpace(p[i])
    requires forall i :: 0 <= i < |q| ==> IsSpace(q[i])
    requires |m| > 0 && !IsSpace(m[0]) && !IsSpace(m[|m| - 1])
    ensures Trim(p + m + q) == m
  {
    var s := p + m + q;
    assert s == p + (m + q);
    SkipSpacesFrame(p, m + q, 0);
    var e := |p| + |m|;
    assert s[e - 1] == m[|m| - 1];
    assert forall j :: e <= j < |s| ==> s[j] == q[j - e];
    DropSpacesFrame(s, |p|, e, |s|);
    assert s[|p|..e] == m;
  }

  lemma {:induction false} SkipSpacesLower(s: string, i: nat)
    requires i <= |s|
    ensures SkipSpaces(LowerStr(s), i) == SkipSpaces(s, i)
    decreases |s| - i
  {
    if i < |s| {
      assert IsSpace(LowerStr(s)[i]) <==> IsSpace(s[i]);
      SkipSpacesLower(s, i + 1);
    }
  }

  lemma {:induction false} DropSpacesLower(s: string, lo: nat, hi: nat)
    requires lo <= hi <= |s|
    ensures DropSpaces(LowerStr(s), lo, hi) == DropSpaces(s, lo, hi)
    decreases hi
  {
    if lo < hi {
      assert IsSpace(LowerStr(s)[hi - 1]) <==> IsSpace(s[hi - 1]);
      DropSpacesLower(s, lo, hi - 1);
    }
  }

  /** Lower-casing never creates or removes white space, so it commutes
      with trimming. */
  lemma TrimLower(s: string)
    ensures Trim(LowerStr(s)) == LowerStr(Trim(s))
  {
    SkipSpacesLower(s, 0);
    var a := SkipSpaces(s, 0);
    DropSpacesLower(s, a, |s|);
    var e := DropSpaces(s, a, |s|);
    LowerSlice(s, a, e);
  }

  lemma LowerSlice(s: string, a: nat, e: nat)
    requires a <= e <= |s|
    ensures LowerStr(s)[a..e] == LowerStr(s[a..e])
  {
  }

  /** `s.replace(/[^a-zA-Z]/g, '')`: the letters of `s`, in order. */
  function Letters(s: string): (r: string)
    ensures |r| <= |s|
    ensures forall i :: 0 <= i < |r| ==> IsLetter(r[i])
    ensures forall c :: c in r <==> c in s && IsLetter(c)
  {
    if s == [] then []
    else if IsLetter(s[0]) then [s[0]] + Letters(s[1..])
    else Letters(s[1..])
  }

  /** Each letter is kept as often as it occurs in `s`, and nothing else is
      kept; `LettersAppend` fixes the order. */
  lemma {:induction false} LettersCounts(s: string, c: char)
    ensures multiset(Letters(s))[c] == if IsLetter(c) then multiset(s)[c] else 0
  {
    if s != [] {
      assert s == [s[0]] + s[1..];
      LettersCounts(s[1..], c);
    }
  }

  /** Filtering a concatenation filters each part and keeps them in order. */
  lemma {:induction false} LettersAppend(a: string, b: string)
    ensures Letters(a + b) == Letters(a) + Letters(b)
  {
    if a == [] {
      assert a + b == b;
    } else {
      assert (a + b)[0] == a[0];
      assert (a + b)[1..] == a[1..] + b;
      LettersAppend(a[1..], b);
    }
  }

  function Digit(d: nat): (c: char)
    requires d < 10
    ensures '0' <= c <= '9'
  {
    ('0' as int + d) as char
  }

  /** The number a string of decimal digits stands for, most significant
      digit first. */
  function DecimalValue(s: string): int
  {
    if s == [] then 0 else 10 * DecimalValue(s[..|s| - 1]) + (s[|s| - 1] as int - '0' as int)
  }

  /** Decimal rendering of a natural number, as `${n}` prints it below
      10^21 (the source renders cell indices): digits without leading zeros
      that read back as `n`. */
  function NatToString(n: nat): (r: string)
    ensures |r| >= 1
    ensures forall i :: 0 <= i < |r| ==> '0' <= r[i] <= '9'
    ensures n < 10 <==> |r| == 1
    ensures |r| > 1 ==> r[0] != '0'
    ensures DecimalValue(r) == n
  {
    if n < 10 then
      var r := [Digit(n)];
      assert r[..0] == [];
      r
    else
      var a := NatToString(n / 10);
      var r := a + [Digit(n % 10)];
      assert r[..|r| - 1] == a;
      assert r[0] == a[0];
      r
  }

  /** Decimal rendering of an integer, as `${n}` prints it when the
      magnitude is below 10^21: a minus sign for a negative number, then the
      digits of its magnitude without leading zeros. */
  function IntToString(n: int): (r: string)
    ensures |r| >= 1
    ensures forall i :: 0 <= i < |r| ==> r[i] == '-' || '0' <= r[i] <= '9'
    ensures n >= 0 ==> '-' !in r && DecimalValue(r) == n
    ensures n < 0 ==> |r| >= 2 && r[0] == '-' && '-' !in r[1..] && DecimalValue(r[1..]) == -n
    ensures n >= 0 && |r| > 1 ==> r[0] != '0'
    ensures n < 0 ==> r[1] != '0'
  {
    if n < 0 then
      var d := NatToString(-n);
      var r := "-" + d;
      assert r[1..] == d;
      r
    else NatToString(n)
  }

  /** Different integers render differently. */
  lemma IntToStringInjective(a: int, b: int)
    requires IntToString(a) == IntToString(b)
    ensures a == b
  {
  }

  /** `xs.join('')` for an array of strings. */
  function Concat(xs: seq<string>): (r: string)
    ensures |xs| == 0 ==> r == []
    ensures |xs| == 1 ==> r == xs[0]
  {
    if xs == [] then [] else xs[0] + Concat(xs[1..])
  }

  /** Joining a concatenation of lists joins each list and concatenates. */
  lemma {:induction false} ConcatAppend(a: seq<string>, b: seq<string>)
    ensures Concat(a + b) == Concat(a) + Concat(b)
  {
    if a == [] {
      assert a + b == b;
    } else {
      assert (a + b)[0] == a[0];
      assert (a + b)[1..] == a[1..] + b;
      ConcatAppend(a[1..], b);
    }
  }

  /** No element occurs twice. */
  predicate NoDup<T(==)>(s: seq<T>)
  {
    forall i, j :: 0 <= i < j < |s| ==> s[i] != s[j]
  }

  predicate StartsWith(s: string, prefix: string)
  {
    |prefix| <= |s| && s[..|prefix|] == prefix
  }
}
